=== FILE: README.md ===
# DHS "worst of the worst" mugshot scraper and face-data enrichment, modelled in Dafny

The repository scrapes the paginated wanted-persons listing at dhs.gov with a
browser session. Each listing card becomes a JSON record (identifier, name,
country, arrest location, crimes, gang affiliation, picture URL, local
picture path), the pictures are downloaded, and the records are written to a
store. A second script walks that store once, runs a face analyzer on every
entry that has a local picture and no analysis yet, logs each decision, and
saves the whole store after every success, so an interrupted run can be
resumed.

This project models the I/O-free core of both scripts:

- `text.dfy` (module `Text`): the Python `str` operations the core relies on,
  over `string` = `seq<char>`. These are `strip`, `replace`, `split`,
  `join`, `lower` and `str(int)`.
- `card_parser.dfy` (module `CardParser`): `_sanitize_filename` and
  `_parse_card`. This covers required-field validation, label stripping, the
  crime list, the gang-affiliation lookup, and the three-tier identifier
  with the two regular expressions it searches for.
- `pagination.dfy` (module `Pagination`): the local picture file name, the
  per-card loop of `scrape_page` and the page loop of `scrape_all`. The
  browser is reduced to two oracles: the cards a page fetch yields (or
  nothing when the fetch fails), and whether a download succeeds.
- `enrichment.dfy` (module `Enrichment`): `analyze_image`'s first-face and
  nothing-on-failure rule, `log_entry`'s line format, and the per-entry
  decision loop of `main`. File existence and the analyzer are oracles.
  Log lines, analyzer calls and saves are events; a save carries a
  snapshot of the store.
- `wrappers.dfy` (module `Wrappers`): `Option`, standing for Python's `None`.

Two behaviours of the code that a reader might not expect:

- Second identifier tier. `re.search(r"/([^/]+)\.(?:jpg|png)", src)`
  matches at the leftmost `/` whose segment contains `.jpg` or `.png`. Within
  that segment the greedy group runs to the last such extension. That segment
  need not be the last path segment: for `/a.png/b.jpg` the group is `a`,
  not `b`. `StemAt` and `StemIdIsLeftmostStem` state exactly this.
- Session log line. The session line passes
  `"SESSION", "START", "Session started", "Total entries: N"` to `log_entry`,
  whose parameters are id, name, status and message. So `START` lands in the
  name column and the status column reads `Session started`, unlike every
  other line, whose status is `SUCCESS`, `ERROR` or `SKIPPED`.
  `SessionStart` models the call as written.

## Model

| member | source | states |
|---|---|---|
| Text.Strip | scraper.py:42 | `str.strip()` with Python's whitespace set: the result has no whitespace at either end and is a contiguous infix of the input |
| Text.StripPadded | scraper.py:57 | stripping any whitespace padding from a trimmed text gives back exactly that text, which pins `strip` down completely |
| Text.StripIdempotent | scraper.py:69 | stripping twice is stripping once |
| Text.RemoveAll | scraper.py:57 | `s.replace(pat, "")` never lengthens the text and leaves it unchanged when `pat` does not occur |
| Text.RemoveAllLeading | scraper.py:57 | an occurrence of `pat` at the very start is deleted and the scan resumes right after it |
| Text.RemoveAllPast | scraper.py:57 | when the first occurrence of `pat` starts after a prefix `x`, `(x + pat + y).replace(pat, "")` is `x` followed by `y.replace(pat, "")` |
| Text.StripTrimmed | scraper.py:42 | stripping text without whitespace at either end returns it unchanged |
| Text.StripConcat | scraper.py:42 | every text is its leading whitespace, its stripped content and the rest, in that order |
| Text.ReplaceChar | scraper.py:64 | `s.replace(a, b)` for one character keeps the length and replaces exactly the occurrences of `a` |
| Text.Split | scraper.py:61 | `s.split(',')` yields at least one piece and no piece contains the separator |
| Text.SplitJoin | scraper.py:61 | splitting a separator-joined list of separator-free pieces recovers the pieces |
| Text.Lower | scraper.py:182 | `lower()` keeps the length and lower-cases each ASCII letter in place |
| Text.NatToString | scraper.py:89 | `str(n)` for a natural number: a non-empty run of decimal digits with no leading zero except for `0` itself |
| Text.IntToString | scraper.py:89 | `str(n)` for the `idx{offset}` placeholder: decimal digits in canonical form, with a leading `-` exactly for negative numbers and no leading zero except for `0` itself; with NatRoundTrip and IntToStringInjective this fixes the text |
| Text.NatRoundTrip | scraper.py:89 | the decimal digits printed for a number read back as that number |
| Text.IntToStringInjective | scraper.py:89 | distinct integers print as distinct strings |
| CardParser.Underscored | scraper.py:42 | `re.sub(r'[<>:"/\\\|?*]', "_", s)`: same length, each forbidden character replaced by `_` in place, every other character kept |
| CardParser.StripUnderscored | scraper.py:42 | replacing forbidden characters commutes with stripping, since no whitespace is forbidden and `_` is not whitespace |
| CardParser.SanitizeFilename | scraper.py:41-42 | the fallback `"unknown"` is taken exactly when the name strips to nothing, and otherwise the stripped name with each forbidden character replaced by `_` in place; so it is never empty, holds none of `< > : " / \ \| ? *`, and is stripped |
| CardParser.SanitizeKeepsClean | scraper.py:41-42 | a non-empty, stripped name with no forbidden character passes through unchanged |
| CardParser.SanitizeIdempotent | scraper.py:41-42 | sanitising a sanitised name changes nothing |
| CardParser.HashAt | scraper.py:83 | when the hash pattern is tried at a position and yields a group, the pattern really matches there with that hex run as group |
| CardParser.HashAtComplete | scraper.py:83 | whenever the hash pattern matches at a position, the group found is the maximal hex run, the only one the regex can match |
| CardParser.FirstMatchIsLeftmost | scraper.py:83-88 | if a pattern matches at a position and at no earlier one, `re.search` finds that position and that match |
| CardParser.FirstMatch | scraper.py:83-88 | `re.search`'s scan: the position returned matches and no earlier position does; none is returned only when no position matches |
| CardParser.HashIdIsLeftmostHex | scraper.py:83-85 | if `wow-mugshot-<hex>.jpg\|png` occurs in the image source (case-insensitive), the first tier yields the hex run of its leftmost occurrence |
| CardParser.StemAt | scraper.py:88 | at a slash, the stem pattern's group is the longest one possible in that segment, ends before a `.jpg`/`.png`, and there is none exactly when no extension follows in the segment |
| CardParser.StemIdIsLeftmostStem | scraper.py:88-89 | if the stem pattern occurs, the second tier yields the longest group at the leftmost slash where it matches |
| CardParser.IdSafe | scraper.py:89 | `re.sub(r"[^a-zA-Z0-9_-]", "_", s)`: same length, allowed characters kept in place, every other character replaced by `_` in place |
| CardParser.DeriveId | scraper.py:82-89 | the identifier is the hash when the first tier matches, else the sanitised stem, else `idx{offset}`, and in every case it is non-empty and uses only `[A-Za-z0-9_-]` |
| CardParser.PlaceholderIdsDistinct | scraper.py:89 | placeholder identifiers of two different cards (distinct page or index, under 1000 cards a page) differ |
| CardParser.LabelLen | scraper.py:69 | a recognised gang label starts with `gang` (any case) and is at least 17 characters long |
| CardParser.RemoveGangLabels | scraper.py:69 | deleting gang labels never lengthens the text and leaves label-free text unchanged |
| CardParser.GangValue | scraper.py:69 | the affiliation read from one element is stripped |
| CardParser.LabelLenSep | scraper.py:69 | `Gang Affiliation:` followed by any run of whitespace (none included) is recognised as one label, the whole run consumed |
| CardParser.LabelLenOfLabel | scraper.py:69 | the label `Gang Affiliation: ` with one space is recognised in full, the space after the colon included |
| CardParser.GangValueOfLabelSep | scraper.py:69 | an element reading `Gang Affiliation:`, any whitespace (none included, as `get_text(strip=True)` produces from `<b>Gang Affiliation:</b> v`), then `v` yields exactly `v` |
| CardParser.GangValueOfLabel | scraper.py:69 | an element reading `Gang Affiliation: v` yields exactly `v` |
| CardParser.FirstMention | scraper.py:71-75 | the body block chosen is the first one containing `Gang Affiliation`; none is chosen only when no block contains it |
| CardParser.GangAffiliation | scraper.py:66-75 | the dedicated gang element takes precedence over the body blocks; with neither the affiliation is `""`; the result is always stripped |
| CardParser.Unlabel | scraper.py:57 | removing a label and stripping leaves a stripped text |
| CardParser.RemoveLeadingLabel | scraper.py:57 | a label at the front of a text that does not otherwise contain it is removed, leaving the rest intact |
| CardParser.UnlabelOfLabel | scraper.py:57-64 | for any label, a text reading label, whitespace, then a stripped value that does not contain the label unlabels to exactly that value |
| CardParser.NameField | scraper.py:57-58 | the name is the unlabelled name text, or `Unknown` when that is empty, so it is never empty |
| CardParser.NameOfLabel | scraper.py:57-58 | a card reading `Name: v` yields the name `v` |
| CardParser.ArrestedField | scraper.py:63-64 | the arrest location is the unlabelled text with every no-break space turned into a plain space (the final `strip` changes nothing, as a no-break space is whitespace); so it is stripped, holds no no-break space, and is `""` when the unlabelled text is empty |
| CardParser.ArrestedOfLabel | scraper.py:63-64 | a card reading `Arrested: v` yields `v` with every no-break space turned into a plain space |
| CardParser.Clean | scraper.py:61 | the kept crimes are non-empty and stripped, never more than the pieces, and comma-free when the pieces are |
| CardParser.CleanOne | scraper.py:61 | one piece contributes its stripped text, or nothing when it strips to `""` |
| CardParser.CleanAppend | scraper.py:61 | the pieces are filtered independently: cleaning two runs of pieces is cleaning each and concatenating |
| CardParser.CrimeList | scraper.py:60-61 | every crime is non-empty, stripped and comma-free; empty crime text gives no crimes |
| CardParser.CrimeListIsClean | scraper.py:60-61 | the crimes of a comma-joined text are its comma-separated pieces, each stripped, with blank pieces dropped |
| CardParser.CleanKeepsAll | scraper.py:61 | pieces that all strip to non-empty crimes are all kept, in order |
| CardParser.CrimeListOfJoin | scraper.py:60-61 | any comma-joined list of crimes, padded with whitespace in any way, reads back as those crimes in order |
| CardParser.JoinUrl | scraper.py:80 | the picture URL is absolute (`http://` or `https://`) and ends with the image source; an absolute source is kept as is, a `//host` source takes the base's `https:` scheme, and a relative path resolves under `https://www.dhs.gov` with at most a `/` added between them |
| CardParser.ParseCard | scraper.py:45-100 | a record is produced exactly when heading, name, crime, location and a non-empty image source are all present; its identifier is valid and its local picture is unset |
| Pagination.Extension | scraper.py:181-183 | the extension is `png` exactly when `.png` occurs in the lower-cased picture URL, else `jpg` |
| Pagination.Truncate | scraper.py:184 | `s[:n]` is the prefix of `s` of length exactly the smaller of `\|s\|` and `n` |
| Pagination.Assemble | scraper.py:185 | `f"{id}_{middle}.{ext}"` places the identifier, `_`, the middle part and the tail at exactly these positions |
| Pagination.ImageFilename | scraper.py:184-185 | the file name is the identifier, `_`, at most 80 characters of the sanitised name, `.` and the extension |
| Pagination.SavePath | scraper.py:186 | `mugshots_path / fname`: the output directory's `mugshots/` followed by the file name, which ImageFilenameIsSafe shows is one path component |
| Pagination.ImageFilenameIsSafe | scraper.py:184-186 | for a parsed identifier, the file name is one path component with no forbidden character |
| Pagination.Acquire | scraper.py:180-188 | only `PICTURE_LOCAL` can change; it is set to the save path exactly when images are wanted and the download reports success |
| Pagination.CardRecords | scraper.py:175-191 | a card contributes one record when it passes validation and none otherwise; that record is the parsed one up to `PICTURE_LOCAL` |
| Pagination.Survivors | scraper.py:175-191 | definition of the per-card fold; characterised by SurvivorsAppend, SurvivorsSkipDropped and SurvivorsCount |
| Pagination.SurvivorsAppend | scraper.py:175-191 | the records of a run of cards are those of its two halves in order: each card contributes independently |
| Pagination.SurvivorsSkipDropped | scraper.py:176-178 | a card that yields nothing is dropped and its siblings keep their records and offsets |
| Pagination.SurvivorsCount | scraper.py:175-191 | when each valid card yields one record, the page holds exactly as many records as valid cards |
| Pagination.CollectCards | scraper.py:173-193 | the per-card loop returns the cards' contributions concatenated in card order, card `i` at offset `base + i` |
| Pagination.PageRecords | scraper.py:169-193 | what `scrape_page(page)` returns: nothing when the fetch fails, otherwise exactly one record per valid card |
| Pagination.ScrapePage | scraper.py:169-193 | a failed fetch yields no records; otherwise the surviving cards' records in card order, offsets `page * 1000 + i` |
| Pagination.Pages | scraper.py:217-224 | definition of the page-order concatenation; characterised by PagesSplit and FailedPageContributesNothing |
| Pagination.PagesSplit | scraper.py:217-224 | the records of a page range split at any page into the earlier pages' records followed by the later ones' |
| Pagination.FailedPageContributesNothing | scraper.py:169-171 | a page that yields nothing contributes nothing, and its neighbours still contribute theirs |
| Pagination.CheckpointIsPrefix | scraper.py:224-228 | what a per-page save writes is a prefix of the final result |
| Pagination.PageCount | scraper.py:217 | `range(start, end + 1)` has no pages when `end < start` and otherwise ends at `end` |
| Pagination.CollectPages | scraper.py:214-230 | the page loop visits consecutive pages in order, returns their records concatenated, and saves the accumulation after every page when asked |
| Pagination.ScrapeAll | scraper.py:210-230 | `scrape_all` visits `start..end` inclusive with `end` defaulting to 1687, returns the page records in page order, and each save holds the pages done so far |
| Enrichment.AnalyzeImage | add_deepface_data.py:30-62 | no face data exactly when the analyzer raises or returns an empty list; otherwise the single face or the list's first face |
| Enrichment.OnlyFirstFaceCounts | add_deepface_data.py:39 | faces after the first never change the result |
| Enrichment.Decide | add_deepface_data.py:116-152 | an existing `DEEPFACE` wins; then a missing or empty `PICTURE_LOCAL`; then a missing file; only then the analyzer, whose answer decides between error and success |
| Enrichment.Updated | add_deepface_data.py:141-142 | the entry changes only by gaining `DEEPFACE`, only after a successful analysis, and never when it already had one |
| Enrichment.UpdatedIdempotent | add_deepface_data.py:116-121 | an entry processed once is left alone when processed again |
| Enrichment.Progress | add_deepface_data.py:112-148 | the store after the first `n` iterations keeps every entry; ProgressStep and ResumeFromCheckpoint characterise it |
| Enrichment.Run | add_deepface_data.py:112-148 | the store after the pass keeps every entry; RunOnlyAddsDeepface and RunIdempotent characterise it |
| Enrichment.RunOnlyAddsDeepface | add_deepface_data.py:112-148 | the pass never reorders, inserts or removes entries, and only ever adds `DEEPFACE` to entries that lacked it |
| Enrichment.RunIdempotent | add_deepface_data.py:116-121 | a second pass over the result changes nothing |
| Enrichment.ResumeFromCheckpoint | add_deepface_data.py:147-148 | restarting from any saved snapshot reaches the same final store as an uninterrupted pass |
| Enrichment.SessionStart | add_deepface_data.py:105 | the session line's arguments as written: id `SESSION`, name `START`, a status outside the per-entry ones, and a message `Total entries: N` that reads back as the number of entries |
| Enrichment.LogLine | add_deepface_data.py:73-80 | `log_entry`'s line starts with the time stamp and ends with a newline; JoinFields and LogLineReadsBack give its fields |
| Enrichment.JoinFields | add_deepface_data.py:76-78 | the line before its newline is its fields joined by `\|` |
| Enrichment.LogLineReadsBack | add_deepface_data.py:73-80 | a log line ends in its only newline, and splitting it on `\|` recovers the time stamp, id, name, status and (only when non-empty) message |
| Enrichment.Count | add_deepface_data.py:117-152 | each outcome increments exactly its own counter: already done, processed, skipped (no picture or no file), or errors |
| Enrichment.TallyConservation | add_deepface_data.py:97-152 | after `n` entries the four counters add up to `n` |
| Enrichment.EntryEvents | add_deepface_data.py:113-152 | definition of one iteration's events; characterised by EntryLogs, EntryStatus and EntryCounts |
| Enrichment.EntryLogs | add_deepface_data.py:113-152 | an entry emits nothing exactly when it already has `DEEPFACE`, at most three events otherwise; each line it logs carries its id and name and a `SUCCESS`, `ERROR` or `SKIPPED` status, and the store it saves is the one with this entry updated |
| Enrichment.EntryStatus | add_deepface_data.py:122-152 | an entry that is not already done logs a line; `SKIPPED` exactly for a missing picture path or file, `ERROR` exactly for a failed analysis, `SUCCESS` exactly for a stored one; skip and error lines carry their exact messages and a success line starts with `Age: ` |
| Enrichment.EntryCounts | add_deepface_data.py:116-152 | an entry causes one analyzer call exactly when it reaches the analyzer, and one save exactly when the analysis succeeds |
| Enrichment.TraceCounts | add_deepface_data.py:112-152 | each entry adds its own analyzer calls and saves to the run's totals |
| Enrichment.CallsAndSavesMatchTally | add_deepface_data.py:112-152 | analyzer calls equal processed plus errors and saves equal processed, so skipped and already-done entries never reach the analyzer |
| Enrichment.FullyEnrichedIsNoOp | add_deepface_data.py:116-121 | over a fully enriched store the pass makes no analyzer call, logs nothing beyond the session line, never saves, and leaves the store unchanged |
| Enrichment.ProgressStep | add_deepface_data.py:141-142 | each iteration updates exactly its own entry |
| Enrichment.HandleEntry | add_deepface_data.py:113-152 | one loop iteration, with the `entry_{i}` and `Unknown` defaults, emits that entry's log lines, analyzer call and save, updates only that entry, and increments one counter |
| Enrichment.Process | add_deepface_data.py:97-152 | the pass logs the session line, then every entry's events in order; it ends with the updated store, and the counters sum to the number of entries |

## Left out

- Browser I/O: driver creation, navigation, the bounded DOM wait, and closing the session. `Session.fetch` stands in for all of it and returns `None` when the fetch fails.
- The in-page JavaScript fetch, base64 bridging and file write of the download. `Session.download` stands in for them and returns only the boolean result.
- BeautifulSoup selection and `get_text(strip=True)`. A `Card` arrives holding the already-extracted text of each element it looks up.
- `time.sleep` delays, progress prints, timestamps (the log line takes its time stamp as a parameter), and the TensorFlow environment toggles.
- JSON serialisation, `save_data`, and the temp-file-plus-rename of `save_json`. A save is an event carrying the snapshot of the store.
- The analyzer itself and the extraction of age and confidences from its raw reply. This covers `int(face.get("age", 0))`, the `.get` defaults and `_f` rounding. An analyzer reply already holds the extracted `FaceData`; confidences are `real`s, and no rounding is modelled.
- Enrichment.AnalyzeImage: failures inside field extraction (a non-numeric age, say) are not modelled. Only an analyzer that raises and an empty face list yield nothing.
- `Path(picture_local)` normalisation and the `Path` join for the save path. Paths are used as the strings they are built from.
- Entries whose `ID`, `NAME`, `PICTURE_LOCAL` or `DEEPFACE` key is present with a JSON `null` or a value of another type. The model has a value of the expected type or an absent key; an entry holding `DEEPFACE` at all counts as already done.
- Oracles are deterministic functions. A file that appears or disappears between runs, or an analyzer that answers differently on a retry, is outside `RunIdempotent` and `ResumeFromCheckpoint`.
- Text.Lower: ASCII letters only. Python's `lower()` also maps non-ASCII letters.
- CardParser.LabelLen: `re.I` is modelled as ASCII case folding. Python's Unicode folding also lets the dotless `ı` (U+0131) and the dotted `İ` (U+0130) match the `i`s of `affiliation`; the model recognises neither.
- CardParser.HashAt: the same ASCII-only folding applies to the hash pattern, so a source spelling `mugſhot` is matched by Python's first tier but not by the model's.
- CardParser.JoinUrl: `urljoin` is reduced to absolute `http(s)` sources, scheme-relative `//host` sources, root-relative `/path` sources, and other relative references. The model, and so every clause of its contract, agrees with `urljoin` only on sources that avoid the cases below: a source with an `http://`/`https://` prefix and a non-empty host, or a path without empty or dot segments, scheme-like prefix, or trailing empty `?`/`#`. Dot segments and upper-case schemes are not resolved. These behaviours of `urljoin` are not reproduced:
  - Any source whose text before the first `:` is a valid scheme other than `https` is returned unchanged, because its scheme differs from the base's: `http:a.jpg` stays `http:a.jpg`, where the model resolves it as a relative path.
  - An empty authority takes the base's host: `///a.jpg` and `https:///a.jpg` both give `https://www.dhs.gov/a.jpg`, where the model gives `https:///a.jpg` for both.
  - Empty inner segments of a relative path are dropped: `a//b.jpg` gives `https://www.dhs.gov/a/b.jpg`, which does not end with the source as the model's contract states.
  - It raises `ValueError` on an unbalanced `[` in the authority (`//[x/a.jpg`). Nothing in `_parse_card` or its callers catches that, so the whole run aborts; the model always returns a URL.
  - `https:a.jpg` resolves to `https://www.dhs.gov/a.jpg`; the model treats it as a relative path.
  - Leading control and space characters are stripped from the source, and tab, CR and LF are removed anywhere in it.
  - `urlunparse` drops an empty query `?` or fragment `#` at the end of every source it rebuilds: relative sources (`a.jpg?` resolves to `https://www.dhs.gov/a.jpg`), `//host` sources and `https://` sources. For these the URL does not end with the source as the model's contract states. `http://` sources are returned unchanged, because their scheme differs from the base's.
- `scrape_metadata_only.py`, `test_first_5_pages.py`, `deep_face.py` and the manual test helpers at the end of scraper.py. These are command-line glue around the modelled functions.
- The missing-store exit and the load in `main` (add_deepface_data.py:88-95): `sys.exit(1)` when the JSON file does not exist, and `json.load`. `Process` starts from the already loaded list of entries.
- Pagination.ScrapeAll: the `start=0` default (scraper.py:200) is not modelled; callers pass the first page explicitly.
- The directory creation in `scrape_page` and the `save_path` argument parsing of `scrape_all`. Saving per page is the boolean `saveEveryPage`.

=== FILE: card_parser.dfy ===
/** One listing card of the wanted-persons pages turned into one record
    (`_parse_card` and `_sanitize_filename` in scraper.py). The HTML parser is
    not modelled: a card arrives as the already-extracted text of each element
    it looks up, `None` where the element is absent. */
module CardParser {
  import opened Wrappers
  import opened Text

  /** One `li.usa-card`, reduced to the text (`get_text(strip=True)`) of the
      elements the parser selects. */
  datatype Card = Card(
    heading: Option<string>,   // h2.usa-card__heading
    name: Option<string>,      // .usa-card_name
    crime: Option<string>,     // .usa-card__crime
    location: Option<string>,  // .usa-card__location
    image: Option<string>,     // `src` of `.usa-card__media img`; "" when the attribute is missing
    gang: Option<string>,      // .usa-card__gang
    bodyDivs: seq<string>)     // every `.usa-card__body > div`, in document order

  /** One harvested subject, as written to the JSON store. */
  datatype Record = Record(
    id: string,
    name: string,
    country: string,
    arrested: string,
    convictedOf: seq<string>,
    gangAffiliation: string,
    picture: string,
    pictureLocal: Option<string>)

  const BaseUrl: string := "https://www.dhs.gov"
  const NoBreakSpace: char := 0xA0 as char

  // ---------------------------------------------------------------------------
  // File names

  /** The characters `_sanitize_filename` replaces: `< > : " / \ | ? *`. */
  predicate IsForbidden(c: char) {
    c == '<' || c == '>' || c == ':' || c == '"' || c == '/' || c == '\\' || c == '|' || c == '?' || c == '*'
  }

  predicate NoForbidden(s: string) {
    forall i :: 0 <= i < |s| ==> !IsForbidden(s[i])
  }

  /** Every forbidden character replaced by `_`, in place. */
  function Underscored(s: string): (r: string)
    ensures |r| == |s|
    ensures forall i :: 0 <= i < |s| ==> r[i] == if IsForbidden(s[i]) then '_' else s[i]
  {
    seq(|s|, i requires 0 <= i < |s| => if IsForbidden(s[i]) then '_' else s[i])
  }

  lemma UnderscoredAppend(p: string, q: string)
    ensures Underscored(p + q) == Underscored(p) + Underscored(q)
  {
    assert forall i :: 0 <= i < |p| ==> (p + q)[i] == p[i];
    assert forall i :: |p| <= i < |p + q| ==> (p + q)[i] == q[i - |p|];
  }

  /** A name without forbidden characters has nothing to replace. */
  lemma UnderscoredClean(s: string)
    requires NoForbidden(s)
    ensures Underscored(s) == s
  {
  }

  /** No whitespace character is forbidden and `_` is not whitespace, so
      replacing before stripping is replacing after stripping. */
  lemma SpaceNotForbidden(c: char)
    requires IsSpace(c)
    ensures !IsForbidden(c)
  {
    var n := c as int;
    assert n <= 0x20 || 0x85 <= n;
  }

  lemma UnderscoredSpaces(a: string)
    requires AllSpace(a)
    ensures Underscored(a) == a
  {
    forall i | 0 <= i < |a| ensures Underscored(a)[i] == a[i] {
      SpaceNotForbidden(a[i]);
    }
  }

  lemma UnderscoredTrimmed(m: string)
    requires Trimmed(m)
    ensures Trimmed(Underscored(m))
  {
    assert !IsSpace('_');
  }

  lemma StripUnderscored(s: string)
    ensures Strip(Underscored(s)) == Underscored(Strip(s))
  {
    StripConcat(s);
    StripTail(s);
    var n := LeadingSpaces(s);
    var m := Strip(s);
    var a, b := s[..n], s[n + |m|..];
    assert s == a + m + b;
    var a', m', b' := Underscored(a), Underscored(m), Underscored(b);
    assert Underscored(s) == a' + m' + b' by {
      UnderscoredAppend(a + m, b);
      UnderscoredAppend(a, m);
    }
    UnderscoredSpaces(a);
    UnderscoredSpaces(b);
    UnderscoredTrimmed(m);
    StripPadded(a', m', b');
  }

  /** `_sanitize_filename`: every forbidden character becomes `_`, the result is
      stripped, and an empty result becomes "unknown". */
  function SanitizeFilename(s: string): (r: string)
    ensures r != ""
    ensures NoForbidden(r)
    ensures Trimmed(r)
    ensures Strip(s) == "" ==> r == "unknown"
    ensures Strip(s) != "" ==> r == Underscored(Strip(s))
  {
    var t := Underscored(Strip(s));
    assert NoForbidden(t) by {
      forall i | 0 <= i < |t| ensures !IsForbidden(t[i]) { }
    }
    assert Trimmed(t) by { StripUnderscored(s); }
    if t == "" then "unknown" else t
  }

  /** A name that is already a clean file name passes through unchanged, so
      sanitising is idempotent. */
  lemma SanitizeKeepsClean(s: string)
    requires s != "" && NoForbidden(s) && Trimmed(s)
    ensures SanitizeFilename(s) == s
  {
    StripTrimmed(s);
    UnderscoredClean(s);
  }

  lemma SanitizeIdempotent(s: string)
    ensures SanitizeFilename(SanitizeFilename(s)) == SanitizeFilename(s)
  {
    SanitizeKeepsClean(SanitizeFilename(s));
  }

  // ---------------------------------------------------------------------------
  // Identifier, first tier: `wow-mugshot-([a-f0-9]+)\.(?:jpg|png)` with re.I

  const MugshotPrefix: string := "wow-mugshot-"

  predicate IsHex(c: char) {
    '0' <= c <= '9' || 'a' <= c <= 'f' || 'A' <= c <= 'F'
  }

  predicate ImageExtAtIgnoringCase(s: string, i: nat) {
    MatchesAt(s, i, ".jpg") || MatchesAt(s, i, ".png")
  }

  /** The hash pattern matches at `p` with a hex group of length `n`. */
  predicate HashMatch(s: string, p: nat, n: nat) {
    && MatchesAt(s, p, MugshotPrefix)
    && n > 0
    && p + 12 + n <= |s|
    && (forall k :: p + 12 <= k < p + 12 + n ==> IsHex(s[k]))
    && ImageExtAtIgnoringCase(s, p + 12 + n)
  }

  /** The hash pattern tried at position `p`: the hex group when it matches. */
  function HashAt(s: string, p: nat): (r: Option<string>)
    ensures r.Some? ==> HashMatch(s, p, |r.value|) && r.value == s[p + 12..p + 12 + |r.value|]
  {
    if !MatchesAt(s, p, MugshotPrefix) then None
    else
      var n := CharRun(s, p + 12, IsHex);
      if n > 0 && ImageExtAtIgnoringCase(s, p + 12 + n) then
        var group := s[p + 12..p + 12 + n];
        assert |group| == n && HashMatch(s, p, n);
        Some(group)
      else None
  }

  lemma DotIsNotHex(s: string, i: nat)
    requires ImageExtAtIgnoringCase(s, i)
    ensures i < |s| && !IsHex(s[i])
  {
    assert Lower(s[i..i + 4])[0] == '.';
    assert s[i..i + 4][0] == s[i];
  }

  /** The greedy hex group is the only group the pattern can match at `p`, so
      whenever the pattern matches there, `HashAt` returns exactly that group. */
  lemma HashAtComplete(s: string, p: nat, n: nat)
    requires HashMatch(s, p, n)
    ensures HashAt(s, p) == Some(s[p + 12..p + 12 + n])
  {
    var m := CharRun(s, p + 12, IsHex);
    DotIsNotHex(s, p + 12 + n);
    assert m <= n;
    assert m == n;
  }

  // ---------------------------------------------------------------------------
  // `re.search`: the leftmost position where a pattern matches

  /** The two file-name patterns the identifier is taken from. */
  datatype Pattern = Hash | Stem

  function AttemptAt(pat: Pattern, s: string, p: nat): Option<string> {
    match pat
    case Hash => HashAt(s, p)
    case Stem => StemAt(s, p)
  }

  /** The first position in `p..|s|` where `pat` matches. */
  function FirstMatch(pat: Pattern, s: string, p: nat): (q: Option<nat>)
    requires p <= |s|
    ensures q.Some? ==> p <= q.value <= |s| && AttemptAt(pat, s, q.value).Some?
    ensures q.Some? ==> forall k :: p <= k < q.value ==> AttemptAt(pat, s, k).None?
    ensures q.None? ==> forall k :: p <= k <= |s| ==> AttemptAt(pat, s, k).None?
    decreases |s| - p
  {
    if AttemptAt(pat, s, p).Some? then Some(p)
    else if p == |s| then None
    else FirstMatch(pat, s, p + 1)
  }

  /** A position where the pattern matches, with no match before it, is the
      one the scan finds. */
  lemma FirstMatchIsLeftmost(pat: Pattern, s: string, p: nat)
    requires p <= |s| && AttemptAt(pat, s, p).Some?
    requires forall k: nat :: k < p ==> AttemptAt(pat, s, k).None?
    ensures FirstMatch(pat, s, 0) == Some(p)
    ensures Search(pat, s) == AttemptAt(pat, s, p)
  {
  }

  /** `re.search(pattern, s)`: the group of the leftmost match. */
  function Search(pat: Pattern, s: string): Option<string> {
    match FirstMatch(pat, s, 0)
    case Some(q) => AttemptAt(pat, s, q)
    case None => None
  }

  /** `re.search` for the hash pattern: the group at the leftmost match. */
  function HashId(src: string): Option<string> {
    Search(Hash, src)
  }

  /** If the hash pattern occurs in `src`, the first tier yields the hex run of
      its leftmost occurrence. */
  lemma HashIdIsLeftmostHex(src: string, p: nat, n: nat)
    requires HashMatch(src, p, n)
    requires forall q: nat, m: nat :: q < p ==> !HashMatch(src, q, m)
    ensures HashId(src) == Some(src[p + 12..p + 12 + n])
  {
    HashAtComplete(src, p, n);
    assert AttemptAt(Hash, src, p).Some?;
    var first := FirstMatch(Hash, src, 0);
    assert first.Some? && first.value <= p;
    var h := HashAt(src, first.value);
    assert HashMatch(src, first.value, |h.value|);
    assert first.value == p;
  }

  // ---------------------------------------------------------------------------
  // Identifier, second tier: `/([^/]+)\.(?:jpg|png)`, case-sensitive

  predicate ExtAt(s: string, q: int) {
    0 <= q && q + 4 <= |s| && (s[q..q + 4] == ".jpg" || s[q..q + 4] == ".png")
  }

  /** The stem pattern matches at the slash `p` with a group ending at `q`. */
  predicate StemMatch(s: string, p: nat, q: nat) {
    && p < |s| && s[p] == '/'
    && p + 2 <= q
    && ExtAt(s, q)
    && (forall k :: p + 1 <= k < q ==> s[k] != '/')
  }

  /** The end of the path segment that starts at `i`. */
  function SegmentEnd(s: string, i: nat): (e: nat)
    requires i <= |s|
    ensures i <= e <= |s|
    ensures forall k :: i <= k < e ==> s[k] != '/'
    ensures e == |s| || s[e] == '/'
    decreases |s| - i
  {
    if i == |s| || s[i] == '/' then i else SegmentEnd(s, i + 1)
  }

  /** The last position in `lo..q` where an extension starts. */
  function LastExt(s: string, lo: nat, q: int): (r: Option<nat>)
    ensures r.Some? ==> lo <= r.value <= q && ExtAt(s, r.value)
    ensures r.Some? ==> forall k :: r.value < k <= q ==> !ExtAt(s, k)
    ensures r.None? ==> forall k :: lo <= k <= q ==> !ExtAt(s, k)
    decreases q - lo
  {
    if q < lo then None
    else if ExtAt(s, q) then Some(q)
    else LastExt(s, lo, q - 1)
  }

  lemma ExtHasNoSlash(s: string, q: nat)
    requires ExtAt(s, q)
    ensures forall k :: q <= k < q + 4 ==> s[k] != '/'
  {
    assert forall k :: q <= k < q + 4 ==> s[k] == s[q..q + 4][k - q];
  }

  /** The stem pattern tried at position `p`: the longest group (the regex's
      `[^/]+` is greedy and backtracks to the last extension in the segment). */
  function StemAt(s: string, p: nat): (r: Option<string>)
    ensures r.Some? ==> StemMatch(s, p, p + 1 + |r.value|) && r.value == s[p + 1..p + 1 + |r.value|]
    ensures r.Some? ==> forall q: nat :: StemMatch(s, p, q) ==> q <= p + 1 + |r.value|
    ensures r.None? ==> forall q: nat :: !StemMatch(s, p, q)
  {
    if p < |s| && s[p] == '/' then
      var e := SegmentEnd(s, p + 1);
      var found := LastExt(s, p + 2, e - 4);
      assert forall q: nat :: StemMatch(s, p, q) ==> q <= e - 4 by {
        forall q: nat | StemMatch(s, p, q) ensures q <= e - 4 {
          ExtHasNoSlash(s, q);
        }
      }
      if found.Some? then Some(s[p + 1..found.value]) else None
    else None
  }

  /** `re.search` for the stem pattern: the group at the leftmost match. */
  function StemId(src: string): Option<string> {
    Search(Stem, src)
  }

  /** If the stem pattern occurs in `src`, the second tier yields the longest
      group at its leftmost slash. */
  lemma StemIdIsLeftmostStem(src: string, p: nat, q: nat)
    requires StemMatch(src, p, q)
    requires forall p': nat, q': nat :: p' < p ==> !StemMatch(src, p', q')
    ensures StemId(src).Some?
    ensures StemMatch(src, p, p + 1 + |StemId(src).value|)
    ensures StemId(src).value == src[p + 1..p + 1 + |StemId(src).value|]
    ensures q <= p + 1 + |StemId(src).value|
  {
    NoStemBefore(src, p);
    assert AttemptAt(Stem, src, p).Some? by { assert StemAt(src, p).Some?; }
    FirstMatchIsLeftmost(Stem, src, p);
    assert StemId(src) == StemAt(src, p);
  }

  lemma NoStemBefore(src: string, p: nat)
    requires forall p': nat, q': nat :: p' < p ==> !StemMatch(src, p', q')
    ensures forall k: nat :: k < p ==> AttemptAt(Stem, src, k).None?
  {
    forall k: nat | k < p
      ensures AttemptAt(Stem, src, k).None?
    {
      assert StemAt(src, k).None?;
    }
  }

  // ---------------------------------------------------------------------------
  // Identifier: the three tiers

  predicate IsIdChar(c: char) {
    'a' <= c <= 'z' || 'A' <= c <= 'Z' || '0' <= c <= '9' || c == '_' || c == '-'
  }

  predicate ValidId(id: string) {
    id != "" && forall i :: 0 <= i < |id| ==> IsIdChar(id[i])
  }

  /** `re.sub(r"[^a-zA-Z0-9_-]", "_", s)`. */
  function IdSafe(s: string): (r: string)
    ensures |r| == |s|
    ensures forall i :: 0 <= i < |r| ==> IsIdChar(r[i])
    ensures forall i :: 0 <= i < |s| && IsIdChar(s[i]) ==> r[i] == s[i]
    ensures forall i :: 0 <= i < |s| && !IsIdChar(s[i]) ==> r[i] == '_'
  {
    seq(|s|, i requires 0 <= i < |s| => if IsIdChar(s[i]) then s[i] else '_')
  }

  /** The record identifier: the hex hash of a `wow-mugshot-…` file name, else
      the sanitised stem of the first `/….jpg|png` segment, else `idx{offset}`. */
  function DeriveId(src: string, offset: int): (id: string)
    ensures ValidId(id)
    ensures HashId(src).Some? ==> id == HashId(src).value
    ensures HashId(src).None? && StemId(src).Some? ==> id == IdSafe(StemId(src).value)
    ensures HashId(src).None? && StemId(src).None? ==> id == "idx" + IntToString(offset)
  {
    match HashId(src)
    case Some(h) => h
    case None =>
      match StemId(src)
      case Some(stem) => IdSafe(stem)
      case None =>
        var digits := IntToString(offset);
        assert forall i :: 3 <= i < 3 + |digits| ==> ("idx" + digits)[i] == digits[i - 3];
        "idx" + digits
  }

  /** Cards that fall through to the placeholder never share an identifier:
      offsets `page * 1000 + i` differ for distinct cards of at most 1000 per page. */
  lemma PlaceholderIdsDistinct(page1: int, i1: int, page2: int, i2: int)
    requires 0 <= i1 < 1000 && 0 <= i2 < 1000
    requires (page1, i1) != (page2, i2)
    ensures "idx" + IntToString(page1 * 1000 + i1) != "idx" + IntToString(page2 * 1000 + i2)
  {
    var a := page1 * 1000 + i1;
    var b := page2 * 1000 + i2;
    assert a - b == (page1 - page2) * 1000 + (i1 - i2);
    assert a != b;
    IntToStringInjective(a, b);
    assert ("idx" + IntToString(a))[3..] == IntToString(a);
    assert ("idx" + IntToString(b))[3..] == IntToString(b);
  }

  // ---------------------------------------------------------------------------
  // Gang affiliation: `re.sub(r"Gang\s+Affiliation\s*:\s*", "", t, flags=re.I)`

  /** The length of the gang label at the start of `u`, or 0 when there is none. */
  function LabelLen(u: string): (n: nat)
    ensures n <= |u|
    ensures n > 0 ==> n >= 17 && MatchesAt(u, 0, "gang")
  {
    if !MatchesAt(u, 0, "gang") then 0
    else
      var b := 4 + CharRun(u, 4, IsSpace);
      if b == 4 || !MatchesAt(u, b, "affiliation") then 0
      else
        var c := b + 11 + CharRun(u, b + 11, IsSpace);
        if c < |u| && u[c] == ':' then c + 1 + CharRun(u, c + 1, IsSpace) else 0
  }

  /** No gang label starts anywhere in `t`. */
  predicate NoLabel(t: string) {
    forall j :: 0 <= j < |t| ==> LabelLen(t[j..]) == 0
  }

  /** Deletes every gang label, scanning left to right. */
  function RemoveGangLabels(t: string): (r: string)
    ensures |r| <= |t|
    ensures NoLabel(t) ==> r == t
    decreases |t|
  {
    if |t| == 0 then ""
    else
      assert t[0..] == t;
      var n := LabelLen(t);
      if n > 0 then RemoveGangLabels(t[n..])
      else
        assert NoLabel(t) ==> NoLabel(t[1..]) by {
          forall j | 0 <= j < |t| - 1 ensures t[1..][j..] == t[j + 1..] { }
        }
        [t[0]] + RemoveGangLabels(t[1..])
  }

  /** The affiliation text of one element: labels deleted, then stripped. */
  function GangValue(t: string): (g: string)
    ensures Trimmed(g)
  {
    Strip(RemoveGangLabels(t))
  }

  /** The label up to its colon, and with the usual single space after it. */
  const LabelHead: string := "Gang Affiliation:"
  const GangLabel: string := "Gang Affiliation: "

  /** The two words of the label, matched ignoring case. */
  lemma LabelWords(u: string)
    requires |u| >= 17 && u[..17] == LabelHead
    ensures MatchesAt(u, 0, "gang") && MatchesAt(u, 5, "affiliation")
  {
    assert u[0..4] == "Gang" by { assert u[0..4] == u[..17][0..4]; }
    assert u[5..16] == "Affiliation" by { assert u[5..16] == u[..17][5..16]; }
    assert Lower("Gang") == "gang";
    assert Lower("Affiliation") == "affiliation";
  }

  /** The label followed by any whitespace (none included) is recognised in
      full, the whole whitespace run after the colon included. */
  lemma LabelLenSep(sep: string, v: string)
    requires AllSpace(sep)
    requires v == "" || !IsSpace(v[0])
    ensures LabelLen(LabelHead + sep + v) == 17 + |sep|
  {
    var u := LabelHead + sep + v;
    assert u[..17] == LabelHead;
    LabelWords(u);
    assert CharRun(u, 4, IsSpace) == 1 by {
      assert u[4] == ' ' && u[5] == 'A';
      RunLength(u, 4, 1, IsSpace);
    }
    assert CharRun(u, 16, IsSpace) == 0 by { assert u[16] == ':'; }
    assert CharRun(u, 17, IsSpace) == |sep| by {
      assert forall k :: 17 <= k < 17 + |sep| ==> u[k] == sep[k - 17];
      assert 17 + |sep| == |u| || u[17 + |sep|] == v[0];
      RunLength(u, 17, |sep|, IsSpace);
    }
  }

  /** The label with a single space after the colon is 18 characters long. */
  lemma LabelLenOfLabel(v: string)
    requires v == "" || !IsSpace(v[0])
    ensures LabelLen(GangLabel + v) == 18
  {
    assert GangLabel + v == LabelHead + " " + v;
    LabelLenSep(" ", v);
  }

  /** A labelled affiliation reads back as the bare value, whatever whitespace
      (none included) follows the colon. */
  lemma GangValueOfLabelSep(sep: string, v: string)
    requires AllSpace(sep) && v != "" && Trimmed(v) && NoLabel(v)
    ensures GangValue(LabelHead + sep + v) == v
  {
    LabelLenSep(sep, v);
    var u := LabelHead + sep + v;
    var n := 17 + |sep|;
    assert u[n..] == v;
    assert RemoveGangLabels(u) == RemoveGangLabels(v) by {
      assert u[0..] == u;
    }
    StripTrimmed(v);
  }

  /** `Gang Affiliation: v` reads back as `v`. */
  lemma GangValueOfLabel(v: string)
    requires v != "" && Trimmed(v) && NoLabel(v)
    ensures GangValue(GangLabel + v) == v
  {
    assert GangLabel + v == LabelHead + " " + v;
    GangValueOfLabelSep(" ", v);
  }

  /** The first body block whose text mentions "Gang Affiliation". */
  function FirstMention(divs: seq<string>): (r: Option<nat>)
    ensures r.Some? ==> r.value < |divs| && Contains(divs[r.value], "Gang Affiliation")
    ensures r.Some? ==> forall j :: 0 <= j < r.value ==> !Contains(divs[j], "Gang Affiliation")
    ensures r.None? ==> forall j :: 0 <= j < |divs| ==> !Contains(divs[j], "Gang Affiliation")
    decreases |divs|
  {
    if |divs| == 0 then None
    else if Contains(divs[0], "Gang Affiliation") then Some(0)
    else
      match FirstMention(divs[1..])
      case None => None
      case Some(k) => Some(k + 1)
  }

  /** The dedicated `.usa-card__gang` element wins; otherwise the first body
      block mentioning the label; otherwise the empty string. */
  function GangAffiliation(gang: Option<string>, divs: seq<string>): (g: string)
    ensures Trimmed(g)
    ensures gang.Some? ==> g == GangValue(gang.value)
    ensures gang.None? && FirstMention(divs).None? ==> g == ""
    ensures gang.None? && FirstMention(divs).Some? ==> g == GangValue(divs[FirstMention(divs).value])
  {
    if gang.Some? then GangValue(gang.value)
    else
      match FirstMention(divs)
      case Some(k) => GangValue(divs[k])
      case None => ""
  }

  // ---------------------------------------------------------------------------
  // Text fields

  /** The element text with its label deleted and whitespace stripped. */
  function Unlabel(text: string, tag: string): (r: string)
    requires |tag| > 0
    ensures Trimmed(r)
  {
    Strip(RemoveAll(text, tag))
  }

  /** `NAME`: the unlabelled name, "Unknown" when nothing is left. */
  function NameField(text: string): (n: string)
    ensures n != "" && Trimmed(n)
    ensures Unlabel(text, "Name:") == "" ==> n == "Unknown"
    ensures Unlabel(text, "Name:") != "" ==> n == Unlabel(text, "Name:")
  {
    var raw := Unlabel(text, "Name:");
    if raw == "" then "Unknown" else raw
  }

  /** Deleting a label that starts the text leaves the rest when the rest does
      not mention the label. */
  lemma RemoveLeadingLabel(tag: string, w: string)
    requires |tag| > 0 && !Contains(w, tag)
    ensures RemoveAll(tag + w, tag) == w
  {
    RemoveAllLeading(tag, w);
  }

  /** A label followed by whitespace and a value that does not mention the
      label again reads back as exactly the value, for every label. */
  lemma UnlabelOfLabel(tag: string, sep: string, v: string)
    requires |tag| > 0 && AllSpace(sep) && Trimmed(v)
    requires !Contains(sep + v, tag)
    ensures Unlabel(tag + sep + v, tag) == v
  {
    var w := sep + v;
    RemoveLeadingLabel(tag, w);
    assert tag + sep + v == tag + w;
    StripPadded(sep, v, "");
    assert sep + v + "" == w;
  }

  /** A space does not start a label that starts with a letter. */
  lemma SpaceThenValue(tag: string, v: string)
    requires |tag| > 0 && tag[0] != ' ' && !Contains(v, tag)
    ensures !Contains(" " + v, tag)
  {
    var rest := " " + v;
    assert rest[1..] == v;
    assert !(tag <= rest) by { assert tag[0] != rest[0]; }
  }

  /** `Name: v` reads back as `v`. */
  lemma NameOfLabel(v: string)
    requires v != "" && Trimmed(v) && !Contains(v, "Name:")
    ensures NameField("Name: " + v) == v
  {
    var u := "Name: " + v;
    assert u == "Name:" + " " + v by { assert "Name:" + " " == "Name: "; }
    SpaceThenValue("Name:", v);
    UnlabelOfLabel("Name:", " ", v);
    assert Unlabel(u, "Name:") == v;
  }

  /** `Arrested: v` reads back as `v` with its no-break spaces made plain. */
  lemma ArrestedOfLabel(v: string)
    requires Trimmed(v) && !Contains(v, "Arrested:")
    ensures ArrestedField("Arrested: " + v) == ReplaceChar(v, NoBreakSpace, ' ')
  {
    var u := "Arrested: " + v;
    assert u == "Arrested:" + " " + v by { assert "Arrested:" + " " == "Arrested: "; }
    SpaceThenValue("Arrested:", v);
    UnlabelOfLabel("Arrested:", " ", v);
    assert Unlabel(u, "Arrested:") == v;
  }

  /** `ARRESTED`: the unlabelled location with no-break spaces made plain. */
  function ArrestedField(text: string): (a: string)
    ensures Trimmed(a)
    ensures NoBreakSpace !in a
    ensures Unlabel(text, "Arrested:") == "" ==> a == ""
    ensures a == ReplaceChar(Unlabel(text, "Arrested:"), NoBreakSpace, ' ')
  {
    var raw := Unlabel(text, "Arrested:");
    if raw == "" then ""
    else
      var plain := ReplaceChar(raw, NoBreakSpace, ' ');
      assert Strip(plain) == plain by { PlainTrimmed(raw); StripTrimmed(plain); }
      Strip(plain)
  }

  /** Turning no-break spaces into plain spaces keeps stripped text stripped:
      a no-break space is whitespace, so it never sits at either end. */
  lemma PlainTrimmed(raw: string)
    requires Trimmed(raw)
    ensures Trimmed(ReplaceChar(raw, NoBreakSpace, ' '))
  {
    assert IsSpace(NoBreakSpace);
  }

  /** The comma-separated pieces, each stripped, empty ones dropped. */
  function Clean(parts: seq<string>): (xs: seq<string>)
    ensures |xs| <= |parts|
    ensures forall k :: 0 <= k < |xs| ==> xs[k] != "" && Trimmed(xs[k])
    ensures (forall k :: 0 <= k < |parts| ==> ',' !in parts[k]) ==> forall k :: 0 <= k < |xs| ==> ',' !in xs[k]
    decreases |parts|
  {
    if |parts| == 0 then []
    else
      var t := Strip(parts[0]);
      (if t == "" then [] else [t]) + Clean(parts[1..])
  }

  /** `CONVICTED_OF` from the unlabelled crime text. */
  function CrimeList(raw: string): (xs: seq<string>)
    ensures forall k :: 0 <= k < |xs| ==> xs[k] != "" && Trimmed(xs[k]) && ',' !in xs[k]
    ensures raw == "" ==> xs == []
  {
    if raw == "" then [] else Clean(Split(raw, ','))
  }

  /** Pieces are cleaned independently: a blank piece anywhere is dropped
      and the pieces after it are still kept. */
  lemma {:induction false} CleanAppend(a: seq<string>, b: seq<string>)
    ensures Clean(a + b) == Clean(a) + Clean(b)
    decreases |a|
  {
    if |a| == 0 {
      assert a + b == b;
    } else {
      var h := if Strip(a[0]) == "" then [] else [Strip(a[0])];
      assert Clean(a + b) == h + Clean(a[1..] + b) by {
        assert (a + b)[0] == a[0];
        assert (a + b)[1..] == a[1..] + b;
      }
      CleanAppend(a[1..], b);
      assert Clean(a) == h + Clean(a[1..]);
      ConsAppend(Clean(a + b), h, Clean(a[1..] + b), Clean(a), Clean(a[1..]), Clean(b));
    }
  }

  lemma ConsAppend<T>(l: seq<T>, h: seq<T>, m: seq<T>, r: seq<T>, x: seq<T>, y: seq<T>)
    requires l == h + m && m == x + y && r == h + x
    ensures l == r + y
  {
  }

  /** One piece yields its stripped text, or nothing when that is empty. */
  lemma CleanOne(p: string)
    ensures Clean([p]) == if Strip(p) == "" then [] else [Strip(p)]
  {
    assert [p][1..] == [];
  }

  /** The crime list of any comma-joined text is the cleaned pieces between
      its commas, blank pieces (as around a stray comma) included. */
  lemma CrimeListIsClean(ys: seq<string>)
    requires |ys| > 0
    requires forall k :: 0 <= k < |ys| ==> ',' !in ys[k]
    ensures CrimeList(Join(ys, ",")) == Clean(ys)
  {
    assert "," == [','];
    SplitJoin(ys, ',');
    if Join(ys, ",") == "" {
      assert ys == [""];
      assert Strip("") == "";
    }
  }

  lemma {:induction false} CleanKeepsAll(ys: seq<string>, xs: seq<string>)
    requires |ys| == |xs|
    requires forall k :: 0 <= k < |ys| ==> Strip(ys[k]) == xs[k] && xs[k] != ""
    ensures Clean(ys) == xs
    decreases |ys|
  {
    if |ys| > 0 {
      CleanKeepsAll(ys[1..], xs[1..]);
      assert xs == [xs[0]] + xs[1..];
    }
  }

  /** Any comma-joined list of crimes, padded with whitespace in any way,
      splits back into the crimes in order. */
  lemma CrimeListOfJoin(ys: seq<string>, xs: seq<string>)
    requires |ys| == |xs| > 0
    requires forall k :: 0 <= k < |ys| ==> ',' !in ys[k]
    requires forall k :: 0 <= k < |ys| ==> Strip(ys[k]) == xs[k] && xs[k] != ""
    ensures CrimeList(Join(ys, ",")) == xs
  {
    CrimeListIsClean(ys);
    CleanKeepsAll(ys, xs);
  }

  // ---------------------------------------------------------------------------
  // Picture URL: `urljoin("https://www.dhs.gov", src)`

  /** Resolves the image reference against the site root. */
  function JoinUrl(src: string): (url: string)
    requires src != ""
    ensures "http://" <= url || "https://" <= url
    ensures |src| <= |url| && url[|url| - |src|..] == src
    ensures "http://" <= src || "https://" <= src ==> url == src
    ensures !("http://" <= src || "https://" <= src || "//" <= src) ==> BaseUrl <= url
    ensures !("http://" <= src || "https://" <= src || "//" <= src) ==> |url| <= |BaseUrl| + 1 + |src|
    ensures "//" <= src && !("http://" <= src || "https://" <= src) ==> url == "https:" + src
  {
    if "http://" <= src || "https://" <= src then src
    else if "//" <= src then "https:" + src
    else if "/" <= src || "?" <= src || "#" <= src then BaseUrl + src
    else BaseUrl + "/" + src
  }

  // ---------------------------------------------------------------------------
  // The card

  predicate HasRequired(card: Card) {
    && card.heading.Some? && card.name.Some? && card.crime.Some?
    && card.location.Some? && card.image.Some? && card.image.value != ""
  }

  /** `_parse_card(li, index_offset)`. */
  function ParseCard(card: Card, offset: int): (r: Option<Record>)
    ensures r.Some? <==> HasRequired(card)
    ensures r.Some? ==> ValidId(r.value.id)
    ensures r.Some? ==> r.value.id == DeriveId(card.image.value, offset)
    ensures r.Some? ==> r.value.name != "" && r.value.name == NameField(card.name.value)
    ensures r.Some? ==> r.value.country == card.heading.value
    ensures r.Some? ==> r.value.convictedOf == CrimeList(Unlabel(card.crime.value, "Convicted of:"))
    ensures r.Some? ==> r.value.arrested == ArrestedField(card.location.value)
    ensures r.Some? ==> r.value.gangAffiliation == GangAffiliation(card.gang, card.bodyDivs)
    ensures r.Some? ==> r.value.picture == JoinUrl(card.image.value)
    ensures r.Some? ==> r.value.pictureLocal.None?
  {
    if !HasRequired(card) then None
    else
      var src := card.image.value;
      Some(Record(
        id := DeriveId(src, offset),
        name := NameField(card.name.value),
        country := card.heading.value,
        arrested := ArrestedField(card.location.value),
        convictedOf := CrimeList(Unlabel(card.crime.value, "Convicted of:")),
        gangAffiliation := GangAffiliation(card.gang, card.bodyDivs),
        picture := JoinUrl(src),
        pictureLocal := None))
  }
}

=== FILE: enrichment.dfy ===
/** The resumable enrichment pass of add_deepface_data.py: one walk over the
    record store that attaches face-analysis results to the entries that have
    a local picture and lack them, logging one line per decision and saving
    the whole store after every successful analysis. The file system and the
    analyzer are oracles; saving is an event carrying a snapshot of the store. */
module Enrichment {
  import opened Wrappers
  import opened Text

  // ---------------------------------------------------------------------------
  // The analyzer

  /** One attribute the analyzer reports: its dominant class and that class's score. */
  datatype Score = Score(dominant: string, confidence: real)

  /** The `DEEPFACE` value attached to an entry. */
  datatype FaceData = FaceData(age: int, gender: Score, race: Score, emotion: Score, faceConfidence: real)

  /** What `DeepFace.analyze` does with one image: it raises, or returns one
      face, or returns a list of faces. */
  datatype AnalyzerReply = Raised | OneFace(face: FaceData) | FaceList(faces: seq<FaceData>)

  /** `analyze_image`: the first face of a list, the single face otherwise, and
      nothing when the analyzer raises or the list is empty (indexing it raises). */
  function AnalyzeImage(reply: AnalyzerReply): (r: Option<FaceData>)
    ensures r.None? <==> reply.Raised? || reply == FaceList([])
    ensures r.Some? ==> (reply.OneFace? && r.value == reply.face) || (reply.FaceList? && r.value == reply.faces[0])
  {
    match reply
    case Raised => None
    case OneFace(face) => Some(face)
    case FaceList(faces) => if |faces| == 0 then None else Some(faces[0])
  }

  /** Faces after the first never influence the result. */
  lemma OnlyFirstFaceCounts(face: FaceData, others: seq<FaceData>)
    ensures AnalyzeImage(FaceList([face] + others)) == AnalyzeImage(OneFace(face)) == Some(face)
  {
  }

  /** The file system and the analyzer, as seen by the pass. */
  datatype Env = Env(fileExists: string -> bool, analyze: string -> AnalyzerReply)

  // ---------------------------------------------------------------------------
  // One entry

  /** An entry of the store. The pass reads `ID`, `NAME` and `PICTURE_LOCAL`,
      may add `DEEPFACE`, and never looks at the remaining keys `rest`. */
  datatype Entry<T> = Entry(id: Option<string>, name: Option<string>, pictureLocal: Option<string>, deepface: Option<FaceData>, rest: T)

  /** What the pass decides for one entry. */
  datatype Outcome = AlreadyDone | NoPicture | FileMissing(path: string) | Failed(path: string) | Enriched(path: string, face: FaceData)

  /** The decision chain of the loop body: an existing `DEEPFACE` wins, then a
      missing or empty `PICTURE_LOCAL`, then a missing file, then the analyzer. */
  function Decide<T>(e: Entry<T>, env: Env): (o: Outcome)
    ensures o.AlreadyDone? <==> e.deepface.Some?
    ensures o.NoPicture? <==> e.deepface.None? && e.pictureLocal.GetOr("") == ""
    ensures (o.FileMissing? || o.Failed? || o.Enriched?) ==> e.pictureLocal == Some(o.path) && o.path != ""
    ensures o.FileMissing? <==> e.deepface.None? && e.pictureLocal.GetOr("") != "" && !env.fileExists(e.pictureLocal.value)
    ensures (o.Failed? || o.Enriched?) ==> env.fileExists(o.path)
    ensures o.Failed? ==> AnalyzeImage(env.analyze(o.path)).None?
    ensures o.Enriched? ==> AnalyzeImage(env.analyze(o.path)) == Some(o.face)
  {
    if e.deepface.Some? then AlreadyDone
    else if e.pictureLocal.GetOr("") == "" then NoPicture
    else
      var path := e.pictureLocal.value;
      if !env.fileExists(path) then FileMissing(path)
      else
        match AnalyzeImage(env.analyze(path))
        case None => Failed(path)
        case Some(face) => Enriched(path, face)
  }

  /** The entry after the loop body: only a successful analysis changes it, and
      then only by adding `DEEPFACE`. */
  function Updated<T>(e: Entry<T>, env: Env): (u: Entry<T>)
    ensures u.(deepface := e.deepface) == e
    ensures e.deepface.Some? ==> u == e
    ensures u.deepface.Some? <==> e.deepface.Some? || Decide(e, env).Enriched?
    ensures Decide(e, env).Enriched? ==> u.deepface == Some(Decide(e, env).face)
  {
    match Decide(e, env)
    case Enriched(_, face) => e.(deepface := Some(face))
    case _ => e
  }

  /** Processing an entry twice is processing it once. */
  lemma UpdatedIdempotent<T>(e: Entry<T>, env: Env)
    ensures Updated(Updated(e, env), env) == Updated(e, env)
  {
  }

  // ---------------------------------------------------------------------------
  // The store

  /** The store once the first `n` entries have been processed: what the loop
      holds after `n` iterations, and what a save after entry `n` writes. */
  function Progress<T>(data: seq<Entry<T>>, n: nat, env: Env): (r: seq<Entry<T>>)
    ensures |r| == |data|
  {
    seq(|data|, j requires 0 <= j < |data| => if j < n then Updated(data[j], env) else data[j])
  }

  /** The store at the end of the pass. */
  function Run<T>(data: seq<Entry<T>>, env: Env): (r: seq<Entry<T>>)
    ensures |r| == |data|
  {
    Progress(data, |data|, env)
  }

  /** The pass never reorders, inserts or removes entries, only ever adds
      `DEEPFACE`, and only to entries that lacked it. */
  lemma RunOnlyAddsDeepface<T>(data: seq<Entry<T>>, env: Env, j: nat)
    requires j < |data|
    ensures |Run(data, env)| == |data|
    ensures Run(data, env)[j].(deepface := data[j].deepface) == data[j]
    ensures data[j].deepface.Some? ==> Run(data, env)[j] == data[j]
    ensures Run(data, env)[j] != data[j] ==> data[j].deepface.None? && Decide(data[j], env).Enriched?
  {
  }

  /** A second pass over the result changes nothing. */
  lemma RunIdempotent<T>(data: seq<Entry<T>>, env: Env)
    ensures Run(Run(data, env), env) == Run(data, env)
  {
    var once := Run(data, env);
    forall j | 0 <= j < |data|
      ensures Run(once, env)[j] == once[j]
    {
      UpdatedIdempotent(data[j], env);
    }
  }

  /** Restarting from any save reaches the same final store as an
      uninterrupted pass. */
  lemma ResumeFromCheckpoint<T>(data: seq<Entry<T>>, n: nat, env: Env)
    ensures Run(Progress(data, n, env), env) == Run(data, env)
  {
    var saved := Progress(data, n, env);
    forall j | 0 <= j < |data|
      ensures Run(saved, env)[j] == Run(data, env)[j]
    {
      UpdatedIdempotent(data[j], env);
    }
  }

  // ---------------------------------------------------------------------------
  // Log lines and events

  /** The arguments of one `log_entry` call. */
  datatype LogRecord = LogRecord(id: string, name: string, status: string, message: string)

  /** What the pass does that can be observed from outside: a log line, an
      analyzer call on an image path, a save of the whole store. */
  datatype Event<T> = Logged(log: LogRecord) | Analyzed(path: string) | Saved(snapshot: seq<Entry<T>>)

  /** The line logged once before the loop. */
  function SessionStart(total: nat): (r: LogRecord)
    ensures r.id == "SESSION" && r.name == "START"
    ensures r.status !in {"SUCCESS", "ERROR", "SKIPPED"}
    ensures "Total entries: " <= r.message
    ensures ParseNat(r.message[|"Total entries: "|..]) == total
  {
    NatRoundTrip(total);
    LogRecord("SESSION", "START", "Session started", "Total entries: " + NatToString(total))
  }

  /** `log_entry`: `ts | id | name | status`, then ` | message` only when the
      message is non-empty, then a newline. The time stamp is a parameter. */
  function LogLine(ts: string, r: LogRecord): (line: string)
    ensures ts <= line
    ensures |line| > 0 && line[|line| - 1] == '\n'
  {
    ts + " | " + r.id + " | " + r.name + " | " + r.status
    + (if r.message != "" then " | " + r.message else "")
    + "\n"
  }

  /** The fields of a log line, as `|` separates them: each keeps the spaces
      around it. */
  function LogFields(ts: string, r: LogRecord): (parts: seq<string>)
    ensures |parts| == if r.message == "" then 4 else 5
  {
    if r.message == "" then [ts + " ", " " + r.id + " ", " " + r.name + " ", " " + r.status]
    else [ts + " ", " " + r.id + " ", " " + r.name + " ", " " + r.status + " ", " " + r.message]
  }

  /** No field of the record holds a `|` or a newline. */
  predicate PlainFields(ts: string, r: LogRecord) {
    '|' !in ts && '|' !in r.id && '|' !in r.name && '|' !in r.status && '|' !in r.message
    && '\n' !in ts && '\n' !in r.id && '\n' !in r.name && '\n' !in r.status && '\n' !in r.message
  }

  /** A log line reads back: it is one line, ending in its only newline, and
      splitting it on `|` recovers the fields, four of them or five with a message. */
  lemma LogLineReadsBack(ts: string, r: LogRecord)
    requires PlainFields(ts, r)
    ensures var line := LogLine(ts, r);
      |line| > 0 && line[|line| - 1] == '\n' && '\n' !in line[..|line| - 1]
      && Split(line[..|line| - 1], '|') == LogFields(ts, r)
  {
    var line := LogLine(ts, r);
    var parts := LogFields(ts, r);
    var body := ts + " | " + r.id + " | " + r.name + " | " + r.status
      + (if r.message != "" then " | " + r.message else "");
    assert line == body + "\n";
    assert line[..|line| - 1] == body;
    forall k | 0 <= k < |parts|
      ensures '|' !in parts[k]
    {
    }
    JoinFields(ts, r);
    SplitJoin(parts, '|');
    assert '\n' !in body by {
      forall k | 0 <= k < |body| ensures body[k] != '\n' {
        assert body[k] in ts || body[k] in r.id || body[k] in r.name || body[k] in r.status || body[k] in r.message || body[k] in " | ";
      }
    }
  }

  /** The line body is the fields joined by `|`. */
  lemma JoinFields(ts: string, r: LogRecord)
    ensures Join(LogFields(ts, r), "|")
         == ts + " | " + r.id + " | " + r.name + " | " + r.status + (if r.message != "" then " | " + r.message else "")
  {
    var parts := LogFields(ts, r);
    var a, b, c := ts + " ", " " + r.id + " ", " " + r.name + " ";
    var j3 := " " + r.status + (if r.message != "" then " | " + r.message else "");
    assert Join(parts[3..], "|") == j3 by {
      if r.message != "" {
        assert parts[3..] == [" " + r.status + " ", " " + r.message];
        assert parts[3..][1..] == [" " + r.message];
      } else {
        assert parts[3..] == [" " + r.status];
      }
    }
    assert parts[2..][1..] == parts[3..];
    assert parts[1..][1..] == parts[2..];
    assert Join(parts[2..], "|") == c + "|" + j3;
    assert Join(parts[1..], "|") == b + "|" + (c + "|" + j3);
    assert Join(parts, "|") == a + "|" + (b + "|" + (c + "|" + j3));
  }

  /** The id and name the log uses for the entry at 0-based position `k`. */
  function LogId<T>(e: Entry<T>, k: nat): string {
    e.id.GetOr("entry_" + NatToString(k + 1))
  }

  function LogName<T>(e: Entry<T>): string {
    e.name.GetOr("Unknown")
  }

  /** What the loop body emits for entry `k`, given the whole input store. */
  function EntryEvents<T>(data: seq<Entry<T>>, k: nat, env: Env): seq<Event<T>>
    requires k < |data|
  {
    var e := data[k];
    var id, name := LogId(e, k), LogName(e);
    match Decide(e, env)
    case AlreadyDone => []
    case NoPicture => [Logged(LogRecord(id, name, "SKIPPED", "No PICTURE_LOCAL"))]
    case FileMissing(path) => [Logged(LogRecord(id, name, "SKIPPED", "File not found: " + path))]
    case Failed(path) => [Analyzed(path), Logged(LogRecord(id, name, "ERROR", "DeepFace analysis failed"))]
    case Enriched(path, face) =>
      [Analyzed(path),
       Logged(LogRecord(id, name, "SUCCESS", "Age: " + IntToString(face.age) + ", Gender: " + face.gender.dominant)),
       Saved(Progress(data, k + 1, env))]
  }

  /** An entry emits nothing exactly when it already has `DEEPFACE`; otherwise
      every line it logs carries its own id and name and one of the per-entry
      statuses. */
  lemma EntryLogs<T>(data: seq<Entry<T>>, k: nat, env: Env)
    requires k < |data|
    ensures |EntryEvents(data, k, env)| <= 3
    ensures EntryEvents(data, k, env) == [] <==> Decide(data[k], env).AlreadyDone?
    ensures forall j :: 0 <= j < |EntryEvents(data, k, env)| && EntryEvents(data, k, env)[j].Logged? ==>
      && EntryEvents(data, k, env)[j].log.id == LogId(data[k], k)
      && EntryEvents(data, k, env)[j].log.name == LogName(data[k])
      && EntryEvents(data, k, env)[j].log.status in {"SUCCESS", "ERROR", "SKIPPED"}
    ensures forall j :: 0 <= j < |EntryEvents(data, k, env)| && EntryEvents(data, k, env)[j].Saved? ==>
      EntryEvents(data, k, env)[j].snapshot == Progress(data, k + 1, env)
  {
  }

  /** The status an entry logs names its outcome: `SKIPPED` for a missing
      picture path or file, `ERROR` for a failed analysis, `SUCCESS` for a
      stored one; the skip and error messages say which case it was. */
  lemma EntryStatus<T>(data: seq<Entry<T>>, k: nat, env: Env)
    requires k < |data|
    ensures var ev, d := EntryEvents(data, k, env), Decide(data[k], env);
      !d.AlreadyDone? ==> exists j :: 0 <= j < |ev| && ev[j].Logged?
    ensures var ev, d := EntryEvents(data, k, env), Decide(data[k], env);
      forall j :: 0 <= j < |ev| && ev[j].Logged? ==>
        && (ev[j].log.status == "SKIPPED" <==> d.NoPicture? || d.FileMissing?)
        && (ev[j].log.status == "ERROR" <==> d.Failed?)
        && (ev[j].log.status == "SUCCESS" <==> d.Enriched?)
        && (d.NoPicture? ==> ev[j].log.message == "No PICTURE_LOCAL")
        && (d.FileMissing? ==> ev[j].log.message == "File not found: " + d.path)
        && (d.Failed? ==> ev[j].log.message == "DeepFace analysis failed")
        && (d.Enriched? ==> "Age: " <= ev[j].log.message)
  {
    var ev, d := EntryEvents(data, k, env), Decide(data[k], env);
    if !d.AlreadyDone? {
      assert ev[|ev| - 1].Logged? || ev[1].Logged?;
    }
  }

  /** The events of the first `n` iterations, in order. */
  function Trace<T>(data: seq<Entry<T>>, n: nat, env: Env): seq<Event<T>>
    requires n <= |data|
    decreases n
  {
    if n == 0 then [] else Trace(data, n - 1, env) + EntryEvents(data, n - 1, env)
  }

  // ---------------------------------------------------------------------------
  // Counters

  /** `already_done`, `processed`, `skipped_no_pic`, `errors`. */
  datatype Tally = Tally(alreadyDone: nat, processed: nat, skippedNoPic: nat, errors: nat) {
    function Total(): nat {
      alreadyDone + processed + skippedNoPic + errors
    }
  }

  /** The counter an outcome increments. */
  function Count(t: Tally, o: Outcome): (u: Tally)
    ensures u.alreadyDone == t.alreadyDone + (if o.AlreadyDone? then 1 else 0)
    ensures u.processed == t.processed + (if o.Enriched? then 1 else 0)
    ensures u.skippedNoPic == t.skippedNoPic + (if o.NoPicture? || o.FileMissing? then 1 else 0)
    ensures u.errors == t.errors + (if o.Failed? then 1 else 0)
    ensures u.Total() == t.Total() + 1
  {
    match o
    case AlreadyDone => t.(alreadyDone := t.alreadyDone + 1)
    case NoPicture => t.(skippedNoPic := t.skippedNoPic + 1)
    case FileMissing(_) => t.(skippedNoPic := t.skippedNoPic + 1)
    case Failed(_) => t.(errors := t.errors + 1)
    case Enriched(_, _) => t.(processed := t.processed + 1)
  }

  /** The counters after the first `n` entries. */
  function TallyOf<T>(data: seq<Entry<T>>, n: nat, env: Env): Tally
    requires n <= |data|
    decreases n
  {
    if n == 0 then Tally(0, 0, 0, 0) else Count(TallyOf(data, n - 1, env), Decide(data[n - 1], env))
  }

  /** Every entry increments exactly one counter. */
  lemma {:induction false} TallyConservation<T>(data: seq<Entry<T>>, n: nat, env: Env)
    requires n <= |data|
    ensures TallyOf(data, n, env).Total() == n
    decreases n
  {
    if n > 0 {
      TallyConservation(data, n - 1, env);
    }
  }

  /** How many analyzer calls, and how many saves, a run of events holds. */
  function Calls<T>(evs: seq<Event<T>>): nat
    decreases |evs|
  {
    if |evs| == 0 then 0 else (if evs[0].Analyzed? then 1 else 0) + Calls(evs[1..])
  }

  function Saves<T>(evs: seq<Event<T>>): nat
    decreases |evs|
  {
    if |evs| == 0 then 0 else (if evs[0].Saved? then 1 else 0) + Saves(evs[1..])
  }

  lemma {:induction false} CountsAppend<T>(a: seq<Event<T>>, b: seq<Event<T>>)
    ensures Calls(a + b) == Calls(a) + Calls(b)
    ensures Saves(a + b) == Saves(a) + Saves(b)
    decreases |a|
  {
    if |a| == 0 {
      assert a + b == b;
    } else {
      assert (a + b)[1..] == a[1..] + b;
      CountsAppend(a[1..], b);
    }
  }

  /** Counting over an event list one element at a time. */
  lemma CountsCons<T>(x: Event<T>, rest: seq<Event<T>>)
    ensures Calls([x] + rest) == (if x.Analyzed? then 1 else 0) + Calls(rest)
    ensures Saves([x] + rest) == (if x.Saved? then 1 else 0) + Saves(rest)
  {
    assert ([x] + rest)[1..] == rest;
  }

  /** One entry's events: an analyzer call exactly when it was analysed, a save
      exactly when the analysis succeeded. */
  lemma EntryCounts<T>(data: seq<Entry<T>>, k: nat, env: Env)
    requires k < |data|
    ensures Calls(EntryEvents(data, k, env)) == if Decide(data[k], env).Failed? || Decide(data[k], env).Enriched? then 1 else 0
    ensures Saves(EntryEvents(data, k, env)) == if Decide(data[k], env).Enriched? then 1 else 0
  {
    var evs := EntryEvents(data, k, env);
    if |evs| == 1 {
      CountsCons(evs[0], []);
      assert evs == [evs[0]] + [];
    } else if |evs| == 2 {
      CountsCons(evs[1], []);
      CountsCons(evs[0], [evs[1]]);
      assert evs == [evs[0]] + [evs[1]];
      assert [evs[1]] == [evs[1]] + [];
    } else if |evs| == 3 {
      CountsCons(evs[2], []);
      CountsCons(evs[1], [evs[2]]);
      CountsCons(evs[0], [evs[1], evs[2]]);
      assert evs == [evs[0]] + [evs[1], evs[2]];
      assert [evs[1], evs[2]] == [evs[1]] + [evs[2]];
      assert [evs[2]] == [evs[2]] + [];
    }
  }

  /** The counts of a trace grow by the counts of the next entry's events. */
  lemma TraceCounts<T>(data: seq<Entry<T>>, n: nat, env: Env)
    requires 0 < n <= |data|
    ensures Calls(Trace(data, n, env)) == Calls(Trace(data, n - 1, env)) + (if Decide(data[n - 1], env).Failed? || Decide(data[n - 1], env).Enriched? then 1 else 0)
    ensures Saves(Trace(data, n, env)) == Saves(Trace(data, n - 1, env)) + (if Decide(data[n - 1], env).Enriched? then 1 else 0)
  {
    CountsAppend(Trace(data, n - 1, env), EntryEvents(data, n - 1, env));
    EntryCounts(data, n - 1, env);
  }

  /** The analyzer runs once per processed or failed entry and never for an
      entry already done or skipped; the store is saved once per success. */
  lemma {:induction false} CallsAndSavesMatchTally<T>(data: seq<Entry<T>>, n: nat, env: Env)
    requires n <= |data|
    ensures Calls(Trace(data, n, env)) == TallyOf(data, n, env).processed + TallyOf(data, n, env).errors
    ensures Saves(Trace(data, n, env)) == TallyOf(data, n, env).processed
    decreases n
  {
    if n > 0 {
      CallsAndSavesMatchTally(data, n - 1, env);
      TraceCounts(data, n, env);
      TallyStep(data, n, env);
    }
  }

  lemma TallyStep<T>(data: seq<Entry<T>>, n: nat, env: Env)
    requires 0 < n <= |data|
    ensures TallyOf(data, n, env).processed == TallyOf(data, n - 1, env).processed + (if Decide(data[n - 1], env).Enriched? then 1 else 0)
    ensures TallyOf(data, n, env).errors == TallyOf(data, n - 1, env).errors + (if Decide(data[n - 1], env).Failed? then 1 else 0)
  {
  }

  /** Over a fully enriched store the pass is silent after the session line:
      no analyzer call, no log line, no save, and the store is unchanged. */
  lemma {:induction false} FullyEnrichedIsNoOp<T>(data: seq<Entry<T>>, n: nat, env: Env)
    requires n <= |data|
    requires forall j :: 0 <= j < |data| ==> data[j].deepface.Some?
    ensures Trace(data, n, env) == []
    ensures TallyOf(data, n, env) == Tally(n, 0, 0, 0)
    ensures Progress(data, n, env) == data
    decreases n
  {
    if n > 0 {
      FullyEnrichedIsNoOp(data, n - 1, env);
    }
  }

  // ---------------------------------------------------------------------------
  // The pass

  /** One more iteration updates exactly one more entry. */
  lemma ProgressStep<T>(data: seq<Entry<T>>, i: nat, env: Env)
    requires i < |data|
    ensures Progress(data, i + 1, env) == Progress(data, i, env)[i := Updated(data[i], env)]
  {
  }

  /** The body of `main`'s loop for the entry at 0-based position `i`, on the
      store as the first `i` iterations left it. */
  method HandleEntry<T>(data: seq<Entry<T>>, i: nat, store: seq<Entry<T>>, tally: Tally, env: Env)
    returns (store': seq<Entry<T>>, step: seq<Event<T>>, tally': Tally)
    requires i < |data|
    requires store == Progress(data, i, env)
    ensures store' == Progress(data, i + 1, env)
    ensures step == EntryEvents(data, i, env)
    ensures tally' == Count(tally, Decide(data[i], env))
  {
    var entry := store[i];
    assert entry == data[i];
    ProgressStep(data, i, env);
    var id, name := entry.id.GetOr("entry_" + NatToString(i + 1)), entry.name.GetOr("Unknown");
    store' := store;
    if entry.deepface.Some? {
      tally' := tally.(alreadyDone := tally.alreadyDone + 1);
      step := [];
      assert Decide(entry, env) == AlreadyDone;
    } else if entry.pictureLocal.GetOr("") == "" {
      tally' := tally.(skippedNoPic := tally.skippedNoPic + 1);
      step := [Logged(LogRecord(id, name, "SKIPPED", "No PICTURE_LOCAL"))];
      assert Decide(entry, env) == NoPicture;
    } else {
      var path := entry.pictureLocal.value;
      if !env.fileExists(path) {
        tally' := tally.(skippedNoPic := tally.skippedNoPic + 1);
        step := [Logged(LogRecord(id, name, "SKIPPED", "File not found: " + path))];
        assert Decide(entry, env) == FileMissing(path);
      } else {
        var result := AnalyzeImage(env.analyze(path));
        if result.Some? {
          var face := result.value;
          assert Decide(entry, env) == Enriched(path, face);
          store' := store[i := entry.(deepface := Some(face))];
          tally' := tally.(processed := tally.processed + 1);
          step := [Analyzed(path),
                   Logged(LogRecord(id, name, "SUCCESS", "Age: " + IntToString(face.age) + ", Gender: " + face.gender.dominant)),
                   Saved(store')];
        } else {
          tally' := tally.(errors := tally.errors + 1);
          step := [Analyzed(path), Logged(LogRecord(id, name, "ERROR", "DeepFace analysis failed"))];
          assert Decide(entry, env) == Failed(path);
        }
      }
    }
  }

  /** `main`'s loop: logs the session line, then processes every entry in order,
      updating the store in place, logging, and saving after each success. */
  method Process<T>(data: seq<Entry<T>>, env: Env) returns (store: seq<Entry<T>>, events: seq<Event<T>>, tally: Tally)
    ensures store == Run(data, env)
    ensures events == [Logged(SessionStart(|data|))] + Trace(data, |data|, env)
    ensures tally == TallyOf(data, |data|, env)
    ensures tally.Total() == |data|
  {
    store := data;
    events := [Logged(SessionStart(|data|))];
    tally := Tally(0, 0, 0, 0);
    assert store == Progress(data, 0, env);
    for i := 0 to |data|
      invariant store == Progress(data, i, env)
      invariant events == [Logged(SessionStart(|data|))] + Trace(data, i, env)
      invariant tally == TallyOf(data, i, env)
    {
      var step;
      store, step, tally := HandleEntry(data, i, store, tally, env);
      events := events + step;
      assert Trace(data, i + 1, env) == Trace(data, i, env) + step;
      assert events == [Logged(SessionStart(|data|))] + (Trace(data, i, env) + step);
    }
    TallyConservation(data, |data|, env);
  }
}

=== FILE: pagination.dfy ===
/** The page loop of scraper.py: `scrape_page` turns the cards of one listing
    page into records and downloads their pictures, `scrape_all` walks an
    inclusive page range and concatenates the pages' records. The browser is
    replaced by two oracles: the cards a page fetch yields, and whether a
    picture download succeeds. */
module Pagination {
  import opened Wrappers
  import opened Text
  import opened CardParser

  /** The last page of the listing, used when no end page is given. */
  const LastPage: int := 1687

  /** The browser session, reduced to what the scraper observes of it. */
  datatype Session = Session(
    fetch: int -> Option<seq<Card>>,      // `_fetch_page`: None when navigation or the wait fails
    download: (string, string) -> bool)   // `_download_image_via_selenium(url, save_path)`

  // ---------------------------------------------------------------------------
  // Picture files

  /** `png` when ".png" occurs in the lower-cased picture URL, `jpg` otherwise. */
  function Extension(url: string): (ext: string)
    ensures ext == "png" || ext == "jpg"
    ensures ext == "png" <==> Contains(Lower(url), ".png")
  {
    if Contains(Lower(url), ".png") then "png" else "jpg"
  }

  /** Python `s[:n]`. */
  function Truncate(s: string, n: nat): (r: string)
    ensures r <= s
    ensures |r| == if |s| <= n then |s| else n
  {
    if |s| <= n then s else s[..n]
  }

  /** `{id}_{middle}{tail}`, with each part where it belongs. */
  function Assemble(id: string, middle: string, tail: string): (f: string)
    ensures |f| == |id| + 1 + |middle| + |tail|
    ensures f[..|id|] == id && f[|id|] == '_'
    ensures f[|id| + 1..|f| - |tail|] == middle && f[|f| - |tail|..] == tail
  {
    var rest := middle + tail;
    assert rest[..|middle|] == middle && rest[|middle|..] == tail;
    var f := id + "_" + rest;
    assert f[|id| + 1..] == rest;
    assert f[|id| + 1..|f| - |tail|] == rest[..|middle|];
    assert f[|f| - |tail|..] == rest[|middle|..];
    f
  }

  /** `{ID}_{sanitize(NAME)[:80]}.{ext}`: the identifier, an underscore, at most
      80 characters of the sanitised name and the extension. */
  function ImageFilename(rec: Record): (f: string)
    ensures |f| == |rec.id| + 1 + |Truncate(SanitizeFilename(rec.name), 80)| + 4
    ensures f[..|rec.id|] == rec.id && f[|rec.id|] == '_'
    ensures f[|rec.id| + 1..|f| - 4] == Truncate(SanitizeFilename(rec.name), 80)
    ensures f[|f| - 4..] == "." + Extension(rec.picture)
  {
    var tail := "." + Extension(rec.picture);
    assert |tail| == 4;
    Assemble(rec.id, Truncate(SanitizeFilename(rec.name), 80), tail)
  }

  /** A name assembled from an identifier, `_`, a clean middle part and a
      clean tail holds no forbidden character. */
  lemma AssembledNameIsSafe(id: string, middle: string, tail: string)
    requires ValidId(id) && NoForbidden(middle) && NoForbidden(tail)
    ensures NoForbidden(Assemble(id, middle, tail))
  {
    var f := Assemble(id, middle, tail);
    var n := |id|;
    forall i | 0 <= i < |f|
      ensures !IsForbidden(f[i])
    {
      if i < n {
        assert f[..n][i] == f[i];
        assert IsIdChar(id[i]);
      } else if n < i < |f| - |tail| {
        assert f[n + 1..|f| - |tail|][i - n - 1] == f[i];
      } else if |f| - |tail| <= i {
        assert f[|f| - |tail|..][i - |f| + |tail|] == f[i];
      }
    }
  }

  lemma PrefixNoForbidden(p: string, s: string)
    requires p <= s && NoForbidden(s)
    ensures NoForbidden(p)
  {
    forall i | 0 <= i < |p| ensures !IsForbidden(p[i]) { assert p[i] == s[i]; }
  }

  /** With an identifier the parser produced, the file name is one path
      component free of every character the sanitiser removes. */
  lemma ImageFilenameIsSafe(rec: Record)
    requires ValidId(rec.id)
    ensures NoForbidden(ImageFilename(rec))
    ensures '/' !in ImageFilename(rec)
  {
    var safe := SanitizeFilename(rec.name);
    var cut := Truncate(safe, 80);
    var tail := "." + Extension(rec.picture);
    PrefixNoForbidden(cut, safe);
    assert NoForbidden(tail);
    AssembledNameIsSafe(rec.id, cut, tail);
    var f := ImageFilename(rec);
    assert f == Assemble(rec.id, cut, tail);
    assert IsForbidden('/');
  }

  /** Where the picture is saved: `{output_dir}/mugshots/{file name}`. */
  function SavePath(outputDir: string, rec: Record): (p: string)
    ensures outputDir + "/mugshots/" <= p
    ensures p[|outputDir| + |"/mugshots/"|..] == ImageFilename(rec)
  {
    outputDir + "/mugshots/" + ImageFilename(rec)
  }

  /** The download step of the per-card loop: the record gains its local path
      exactly when images are wanted and the download reports success. */
  function Acquire(rec: Record, downloadImages: bool, outputDir: string, session: Session): (r: Record)
    ensures r.(pictureLocal := rec.pictureLocal) == rec
    ensures downloadImages && session.download(rec.picture, SavePath(outputDir, rec)) ==> r.pictureLocal == Some(SavePath(outputDir, rec))
    ensures !downloadImages || !session.download(rec.picture, SavePath(outputDir, rec)) ==> r.pictureLocal == rec.pictureLocal
  {
    if downloadImages && session.download(rec.picture, SavePath(outputDir, rec))
    then rec.(pictureLocal := Some(SavePath(outputDir, rec)))
    else rec
  }

  // ---------------------------------------------------------------------------
  // One page

  /** What one card contributes to its page: nothing when it fails validation,
      otherwise its record after the download step. */
  function CardRecords(card: Card, offset: int, downloadImages: bool, outputDir: string, session: Session): (r: seq<Record>)
    ensures |r| == (if HasRequired(card) then 1 else 0)
    ensures |r| == 1 ==> r[0].(pictureLocal := None) == ParseCard(card, offset).value
  {
    match ParseCard(card, offset)
    case None => []
    case Some(rec) => [Acquire(rec, downloadImages, outputDir, session)]
  }

  /** The per-card step of `scrape_page` with the run's settings fixed. */
  function CardStep(downloadImages: bool, outputDir: string, session: Session): (Card, int) -> seq<Record> {
    (card: Card, offset: int) => CardRecords(card, offset, downloadImages, outputDir, session)
  }

  /** The records the cards yield, in card order; card `k` contributes
      `step(cards[k], base + k)`. */
  function Survivors(cards: seq<Card>, base: int, step: (Card, int) -> seq<Record>): seq<Record>
    decreases |cards|
  {
    if |cards| == 0 then []
    else
      var k := |cards| - 1;
      Survivors(cards[..k], base, step) + step(cards[k], base + k)
  }

  /** The records of a run of cards are the records of its two halves, in order:
      each card contributes independently of its siblings. */
  lemma {:induction false} SurvivorsAppend(a: seq<Card>, b: seq<Card>, base: int, step: (Card, int) -> seq<Record>)
    ensures Survivors(a + b, base, step) == Survivors(a, base, step) + Survivors(b, base + |a|, step)
    decreases |b|
  {
    if |b| == 0 {
      assert a + b == a;
    } else {
      var k := |b| - 1;
      assert (a + b)[..|a| + k] == a + b[..k];
      assert (a + b)[|a| + k] == b[k];
      SurvivorsAppend(a, b[..k], base, step);
    }
  }

  /** A card that yields nothing (one failing validation, by `CardRecords`) is
      dropped and its siblings are kept, at their own offsets. */
  lemma SurvivorsSkipDropped(cards: seq<Card>, k: nat, base: int, step: (Card, int) -> seq<Record>)
    requires k < |cards|
    requires step(cards[k], base + k) == []
    ensures Survivors(cards, base, step) == Survivors(cards[..k], base, step) + Survivors(cards[k + 1..], base + k + 1, step)
  {
    assert cards == cards[..k] + ([cards[k]] + cards[k + 1..]);
    SurvivorsAppend(cards[..k], [cards[k]] + cards[k + 1..], base, step);
    SurvivorsAppend([cards[k]], cards[k + 1..], base + k, step);
    assert [cards[k]][..0] == [];
  }

  /** The number of cards carrying every required field. */
  function CountValid(cards: seq<Card>): nat
    decreases |cards|
  {
    if |cards| == 0 then 0
    else CountValid(cards[..|cards| - 1]) + (if HasRequired(cards[|cards| - 1]) then 1 else 0)
  }

  /** With a step that, like `CardRecords`, yields one record per valid card and
      none otherwise, exactly the valid cards survive. */
  lemma {:induction false} SurvivorsCount(cards: seq<Card>, base: int, step: (Card, int) -> seq<Record>)
    requires forall c: Card, o: int :: |step(c, o)| == if HasRequired(c) then 1 else 0
    ensures |Survivors(cards, base, step)| == CountValid(cards)
    decreases |cards|
  {
    if |cards| > 0 {
      SurvivorsCount(cards[..|cards| - 1], base, step);
    }
  }

  /** What `scrape_page(page)` returns. */
  function PageRecords(page: int, downloadImages: bool, outputDir: string, session: Session): (r: seq<Record>)
    ensures session.fetch(page).None? ==> r == []
    ensures session.fetch(page).Some? ==> |r| == CountValid(session.fetch(page).value)
  {
    match session.fetch(page)
    case None => []
    case Some(cards) =>
      SurvivorsCount(cards, page * 1000, CardStep(downloadImages, outputDir, session));
      Survivors(cards, page * 1000, CardStep(downloadImages, outputDir, session))
  }

  /** The per-card loop of `scrape_page`: runs `step` on every card in order,
      card `i` at offset `base + i`, and concatenates what the cards yield. */
  method CollectCards(cards: seq<Card>, base: int, step: (Card, int) -> seq<Record>) returns (records: seq<Record>)
    ensures records == Survivors(cards, base, step)
  {
    records := [];
    for i := 0 to |cards|
      invariant records == Survivors(cards[..i], base, step)
    {
      assert cards[..i + 1][..i] == cards[..i];
      records := records + step(cards[i], base + i);
    }
    assert cards[..|cards|] == cards;
  }

  /** `scrape_page`: a failed fetch yields nothing; otherwise every valid card
      yields its record, downloaded or not, in card order. */
  method ScrapePage(page: int, downloadImages: bool, outputDir: string, session: Session) returns (records: seq<Record>)
    ensures records == PageRecords(page, downloadImages, outputDir, session)
    ensures session.fetch(page).None? ==> records == []
  {
    var fetched := session.fetch(page);
    if fetched.None? {
      return [];
    }
    records := CollectCards(fetched.value, page * 1000, CardStep(downloadImages, outputDir, session));
  }

  // ---------------------------------------------------------------------------
  // The page range

  /** `scrape_page` with the run's settings fixed, as a function of the page number. */
  function PageStep(downloadImages: bool, outputDir: string, session: Session): int -> seq<Record> {
    (page: int) => PageRecords(page, downloadImages, outputDir, session)
  }

  /** The records of the `n` pages starting at `first`, in page order, where
      page `p` yields `scrape(p)`. */
  function Pages(first: int, n: nat, scrape: int -> seq<Record>): seq<Record>
    decreases n
  {
    if n == 0 then [] else Pages(first, n - 1, scrape) + scrape(first + n - 1)
  }

  /** The range splits at any page: earlier pages come first. */
  lemma {:induction false} PagesSplit(first: int, m: nat, n: nat, scrape: int -> seq<Record>)
    ensures Pages(first, m + n, scrape) == Pages(first, m, scrape) + Pages(first + m, n, scrape)
    decreases n
  {
    if n > 0 {
      PagesSplit(first, m, n - 1, scrape);
    }
  }

  /** A page that yields nothing (one whose fetch failed, by `ScrapePage`)
      contributes nothing; its neighbours still do. */
  lemma FailedPageContributesNothing(first: int, n: nat, k: nat, scrape: int -> seq<Record>)
    requires k < n
    requires scrape(first + k) == []
    ensures Pages(first, n, scrape) == Pages(first, k, scrape) + Pages(first + k + 1, n - k - 1, scrape)
  {
    PagesSplit(first, k, n - k, scrape);
    PagesSplit(first + k, 1, n - k - 1, scrape);
    assert Pages(first + k, 1, scrape) == [];
  }

  /** A checkpoint written after the first `k` pages is a prefix of the final result. */
  lemma CheckpointIsPrefix(first: int, k: nat, n: nat, scrape: int -> seq<Record>)
    requires k <= n
    ensures Pages(first, k, scrape) <= Pages(first, n, scrape)
  {
    PagesSplit(first, k, n - k, scrape);
  }

  /** The number of pages in `start..last`, both inclusive. */
  function PageCount(start: int, last: int): (n: nat)
    ensures last < start ==> n == 0
    ensures start <= last ==> start + n - 1 == last
  {
    if last < start then 0 else last - start + 1
  }

  /** The page loop of `scrape_all`: scrapes pages `start`, `start + 1`, … in
      order, `count` of them, accumulating their records and, when
      `saveEveryPage` is set, a snapshot of the accumulation after each page. */
  method CollectPages(start: int, count: nat, scrape: int -> seq<Record>, saveEveryPage: bool)
    returns (records: seq<Record>, visited: seq<int>, checkpoints: seq<seq<Record>>)
    ensures |visited| == count
    ensures forall i :: 0 <= i < count ==> visited[i] == start + i
    ensures records == Pages(start, count, scrape)
    ensures saveEveryPage ==> |checkpoints| == count
    ensures saveEveryPage ==> forall k :: 0 <= k < count ==> checkpoints[k] == Pages(start, k + 1, scrape)
    ensures !saveEveryPage ==> checkpoints == []
  {
    records, visited, checkpoints := [], [], [];
    for n := 0 to count
      invariant |visited| == n
      invariant forall i :: 0 <= i < n ==> visited[i] == start + i
      invariant records == Pages(start, n, scrape)
      invariant saveEveryPage ==> |checkpoints| == n
      invariant saveEveryPage ==> forall k :: 0 <= k < n ==> checkpoints[k] == Pages(start, k + 1, scrape)
      invariant !saveEveryPage ==> checkpoints == []
    {
      var page := start + n;
      visited := visited + [page];
      records := records + scrape(page);
      if saveEveryPage {
        checkpoints := checkpoints + [records];
      }
    }
  }

  /** `scrape_all`: fetches pages `start..end` (end defaulting to the last
      listing page) in order, returns the concatenation of their records and,
      when `saveEveryPage` is set, writes the accumulated records after each page. */
  method ScrapeAll(start: int, end: Option<int>, downloadImages: bool, outputDir: string, saveEveryPage: bool, session: Session)
    returns (records: seq<Record>, visited: seq<int>, checkpoints: seq<seq<Record>>)
    ensures |visited| == PageCount(start, end.GetOr(LastPage))
    ensures forall i :: 0 <= i < |visited| ==> visited[i] == start + i
    ensures records == Pages(start, |visited|, PageStep(downloadImages, outputDir, session))
    ensures saveEveryPage ==> |checkpoints| == |visited|
    ensures saveEveryPage ==> forall k :: 0 <= k < |checkpoints| ==>
              checkpoints[k] == Pages(start, k + 1, PageStep(downloadImages, outputDir, session))
    ensures !saveEveryPage ==> checkpoints == []
  {
    var count := PageCount(start, end.GetOr(LastPage));
    records, visited, checkpoints := CollectPages(start, count, PageStep(downloadImages, outputDir, session), saveEveryPage);
  }
}

=== FILE: text.dfy ===
/** The Python `str` operations the scraper and the enrichment processor use,
    over `string` = `seq<char>` with one `char` per Unicode code point. */
module Text {

  /** `str.isspace()` for one code point; also what the regex class `\s`
      matches in a `str` pattern. */
  predicate IsSpace(c: char) {
    var n := c as int;
    n == 0x20 || (0x09 <= n <= 0x0D) || (0x1C <= n <= 0x1F) || n == 0x85 || n == 0xA0
    || n == 0x1680 || (0x2000 <= n <= 0x200A) || n == 0x2028 || n == 0x2029
    || n == 0x202F || n == 0x205F || n == 0x3000
  }

  predicate AllSpace(s: string) {
    forall i :: 0 <= i < |s| ==> IsSpace(s[i])
  }

  /** Neither end of `s` is whitespace. */
  predicate Trimmed(s: string) {
    |s| == 0 || (!IsSpace(s[0]) && !IsSpace(s[|s| - 1]))
  }

  /** The number of whitespace characters `s` starts with. */
  function LeadingSpaces(s: string): (n: nat)
    ensures n <= |s|
    ensures AllSpace(s[..n])
    ensures n == |s| || !IsSpace(s[n])
  {
    if |s| == 0 || !IsSpace(s[0]) then 0
    else
      var k := LeadingSpaces(s[1..]);
      assert s[..1 + k] == [s[0]] + s[1..][..k];
      1 + k
  }

  /** The length of `s` once its trailing whitespace is cut off. */
  function ContentEnd(s: string): (n: nat)
    ensures n <= |s|
    ensures AllSpace(s[n..])
    ensures n == 0 || !IsSpace(s[n - 1])
  {
    if |s| == 0 || !IsSpace(s[|s| - 1]) then |s|
    else
      var k := ContentEnd(s[..|s| - 1]);
      assert s[k..] == s[..|s| - 1][k..] + [s[|s| - 1]];
      k
  }

  /** Python `s.strip()`: the infix left after removing whitespace at both ends. */
  function Strip(s: string): (r: string)
    ensures Trimmed(r)
    ensures LeadingSpaces(s) + |r| <= |s|
    ensures forall i :: 0 <= i < |r| ==> r[i] == s[LeadingSpaces(s) + i]
  {
    var t := s[LeadingSpaces(s)..];
    var r := t[..ContentEnd(t)];
    assert forall i :: 0 <= i < |r| ==> r[i] == s[LeadingSpaces(s) + i];
    r
  }

  /** Whitespace followed by a non-space character: the leading run is exactly `a`. */
  lemma {:induction false} LeadingSpacesOfPadded(a: string, y: string)
    requires AllSpace(a) && (|y| == 0 || !IsSpace(y[0]))
    ensures LeadingSpaces(a + y) == |a|
    decreases |a|
  {
    if |a| > 0 {
      assert IsSpace(a[0]);
      assert (a + y)[0] == a[0];
      assert (a + y)[1..] == a[1..] + y;
      LeadingSpacesOfPadded(a[1..], y);
    } else {
      assert a + y == y;
    }
  }

  /** A non-space character followed by whitespace: the content ends right after `m`. */
  lemma {:induction false} ContentEndOfPadded(m: string, b: string)
    requires AllSpace(b) && (|m| == 0 || !IsSpace(m[|m| - 1]))
    ensures ContentEnd(m + b) == |m|
    decreases |b|
  {
    if |b| > 0 {
      var t := m + b;
      assert IsSpace(b[|b| - 1]);
      assert t[|t| - 1] == b[|b| - 1];
      assert t[..|t| - 1] == m + b[..|b| - 1];
      ContentEndOfPadded(m, b[..|b| - 1]);
    } else {
      assert m + b == m;
    }
  }

  /** Stripping whitespace padding recovers exactly the padded text: together with
      `Trimmed(Strip(s))` this pins `Strip` down completely. */
  lemma StripPadded(a: string, m: string, b: string)
    requires AllSpace(a) && AllSpace(b) && Trimmed(m)
    ensures Strip(a + m + b) == m
  {
    var s := a + m + b;
    if |m| == 0 {
      assert s == a + b;
      LeadingSpacesOfPadded(s, "");
      assert s + "" == s;
    } else {
      assert s == a + (m + b);
      LeadingSpacesOfPadded(a, m + b);
      assert s[|a|..] == m + b;
      ContentEndOfPadded(m, b);
      assert (m + b)[..|m|] == m;
    }
  }

  /** What follows the stripped content is whitespace. */
  lemma StripTail(s: string)
    ensures LeadingSpaces(s) + |Strip(s)| <= |s|
    ensures AllSpace(s[LeadingSpaces(s) + |Strip(s)|..])
  {
    var n := LeadingSpaces(s);
    var t := s[n..];
    var c := ContentEnd(t);
    assert Strip(s) == t[..c];
    assert s[n + c..] == t[c..];
  }

  /** A text that agrees with `s` from position `n` on splits `s` in three. */
  lemma Decompose(s: string, n: nat, r: string)
    requires n + |r| <= |s|
    requires forall i :: 0 <= i < |r| ==> r[i] == s[n + i]
    ensures s == s[..n] + r + s[n + |r|..]
  {
    assert r == s[n..n + |r|];
    assert s == s[..n] + s[n..n + |r|] + s[n + |r|..];
  }

  /** Every text is its leading whitespace, its stripped content and the rest,
      in that order. */
  lemma StripConcat(s: string)
    ensures LeadingSpaces(s) + |Strip(s)| <= |s|
    ensures s == s[..LeadingSpaces(s)] + Strip(s) + s[LeadingSpaces(s) + |Strip(s)|..]
  {
    var n, r := LeadingSpaces(s), Strip(s);
    Decompose(s, n, r);
  }

  /** Stripping text without surrounding whitespace changes nothing. */
  lemma StripTrimmed(s: string)
    requires Trimmed(s)
    ensures Strip(s) == s
  {
    StripPadded("", s, "");
    assert "" + s + "" == s;
  }

  lemma StripIdempotent(s: string)
    ensures Strip(Strip(s)) == Strip(s)
  {
    StripTrimmed(Strip(s));
  }

  /** Python `pat in s`. */
  predicate Contains(s: string, pat: string)
    decreases |s|
  {
    pat <= s || (|s| > 0 && Contains(s[1..], pat))
  }

  /** Python `s.replace(pat, "")`: deletes the non-overlapping occurrences of
      `pat`, scanning left to right. */
  function RemoveAll(s: string, pat: string): (r: string)
    requires |pat| > 0
    ensures |r| <= |s|
    ensures !Contains(s, pat) ==> r == s
    decreases |s|
  {
    if |s| < |pat| then s
    else if pat <= s then RemoveAll(s[|pat|..], pat)
    else [s[0]] + RemoveAll(s[1..], pat)
  }

  /** An occurrence at the very start is deleted and the scan goes on after it. */
  lemma RemoveAllLeading(pat: string, y: string)
    requires |pat| > 0
    ensures RemoveAll(pat + y, pat) == RemoveAll(y, pat)
  {
    assert pat <= pat + y;
    assert (pat + y)[|pat|..] == y;
  }

  /** No occurrence of `pat` starts in the first `k` positions of `s`. */
  predicate NoStartBefore(s: string, pat: string, k: nat)
    decreases k
  {
    k == 0 || (|s| > 0 && !(pat <= s) && NoStartBefore(s[1..], pat, k - 1))
  }

  /** Every occurrence is deleted, not only the first: text up to and including
      the first occurrence of `pat` becomes the text before it, and the scan
      goes on after it. */
  lemma {:induction false} RemoveAllPast(x: string, pat: string, y: string)
    requires |pat| > 0
    requires NoStartBefore(x + pat + y, pat, |x|)
    ensures RemoveAll(x + pat + y, pat) == x + RemoveAll(y, pat)
    decreases |x|
  {
    var s := x + pat + y;
    if |x| == 0 {
      assert s == pat + y;
      RemoveAllLeading(pat, y);
      assert x + RemoveAll(y, pat) == RemoveAll(y, pat);
    } else {
      var s' := x[1..] + pat + y;
      assert s[1..] == s';
      assert RemoveAll(s, pat) == [x[0]] + RemoveAll(s', pat) by {
        assert s[0] == x[0];
      }
      RemoveAllPast(x[1..], pat, y);
      assert x == [x[0]] + x[1..];
    }
  }

  /** Python `s.replace(a, b)` for single characters. */
  function ReplaceChar(s: string, a: char, b: char): (r: string)
    ensures |r| == |s|
    ensures forall i :: 0 <= i < |s| ==> r[i] == (if s[i] == a then b else s[i])
  {
    seq(|s|, i requires 0 <= i < |s| => if s[i] == a then b else s[i])
  }

  /** Python `s.split(sep)` for a one-character separator: the pieces between
      separators, empty pieces included. */
  function Split(s: string, sep: char): (parts: seq<string>)
    ensures |parts| > 0
    ensures forall k :: 0 <= k < |parts| ==> sep !in parts[k]
    decreases |s|
  {
    if |s| == 0 then [""]
    else
      var rest := Split(s[1..], sep);
      if s[0] == sep then [""] + rest
      else [[s[0]] + rest[0]] + rest[1..]
  }

  /** Python `sep.join(parts)`. */
  function Join(parts: seq<string>, sep: string): string
    decreases |parts|
  {
    if |parts| == 0 then ""
    else if |parts| == 1 then parts[0]
    else parts[0] + sep + Join(parts[1..], sep)
  }

  /** Splitting text whose first piece has no separator. */
  lemma {:induction false} SplitPrefix(x: string, y: string, sep: char)
    requires sep !in x
    ensures Split(x + y, sep) == [x + Split(y, sep)[0]] + Split(y, sep)[1..]
    decreases |x|
  {
    if |x| > 0 {
      assert (x + y)[1..] == x[1..] + y;
      SplitPrefix(x[1..], y, sep);
      assert [x[0]] + (x[1..] + Split(y, sep)[0]) == x + Split(y, sep)[0];
    } else {
      assert x + y == y;
      assert Split(y, sep) == [Split(y, sep)[0]] + Split(y, sep)[1..];
      assert x + Split(y, sep)[0] == Split(y, sep)[0];
    }
  }

  /** Joining then splitting on a separator that no piece contains is the identity. */
  lemma {:induction false} SplitJoin(parts: seq<string>, sep: char)
    requires |parts| > 0
    requires forall k :: 0 <= k < |parts| ==> sep !in parts[k]
    ensures Split(Join(parts, [sep]), sep) == parts
    decreases |parts|
  {
    if |parts| == 1 {
      SplitPrefix(parts[0], "", sep);
      assert parts[0] + "" == parts[0];
    } else {
      var tail := Join(parts[1..], [sep]);
      SplitJoin(parts[1..], sep);
      assert Join(parts, [sep]) == parts[0] + ([sep] + tail);
      SplitPrefix(parts[0], [sep] + tail, sep);
      assert ([sep] + tail)[1..] == tail;
      assert Split([sep] + tail, sep) == [""] + parts[1..];
      assert parts[0] + "" == parts[0];
    }
  }

  /** ASCII-only `str.lower()` of one character. */
  function LowerChar(c: char): char {
    if 'A' <= c <= 'Z' then (c as int + 32) as char else c
  }

  /** `s.lower()` restricted to ASCII letters. */
  function Lower(s: string): (r: string)
    ensures |r| == |s|
    ensures forall i :: 0 <= i < |s| ==> r[i] == LowerChar(s[i])
  {
    seq(|s|, i requires 0 <= i < |s| => LowerChar(s[i]))
  }

  /** `lit` (written in lower case) occurs at position `i` of `s`, ignoring ASCII case. */
  predicate MatchesAt(s: string, i: nat, lit: string) {
    i + |lit| <= |s| && Lower(s[i..i + |lit|]) == lit
  }

  /** The length of the longest run of characters satisfying `p` that starts at `i`. */
  function CharRun(s: string, i: nat, p: char -> bool): (n: nat)
    requires i <= |s|
    ensures i + n <= |s|
    ensures forall k :: i <= k < i + n ==> p(s[k])
    ensures i + n == |s| || !p(s[i + n])
    decreases |s| - i
  {
    if i == |s| || !p(s[i]) then 0 else 1 + CharRun(s, i + 1, p)
  }

  /** A run of exactly `m` characters satisfying `p`, followed by the end of
      the text or a character that does not, is the run `CharRun` measures. */
  lemma {:induction false} RunLength(s: string, i: nat, m: nat, p: char -> bool)
    requires i + m <= |s|
    requires forall k :: i <= k < i + m ==> p(s[k])
    requires i + m == |s| || !p(s[i + m])
    ensures CharRun(s, i, p) == m
    decreases m
  {
    if m > 0 {
      RunLength(s, i + 1, m - 1, p);
    }
  }

  predicate IsDigit(c: char) {
    '0' <= c <= '9'
  }

  function DigitChar(d: nat): (c: char)
    requires d < 10
    ensures IsDigit(c) && (c as int) - ('0' as int) == d
  {
    (('0' as int) + d) as char
  }

  /** Python `str(n)` for a natural number. */
  function NatToString(n: nat): (s: string)
    ensures |s| > 0
    ensures forall i :: 0 <= i < |s| ==> IsDigit(s[i])
    ensures s[0] == '0' ==> n == 0
    decreases n
  {
    if n < 10 then [DigitChar(n)] else NatToString(n / 10) + [DigitChar(n % 10)]
  }

  /** Python `str(n)` for any integer. */
  function IntToString(n: int): (s: string)
    ensures |s| > 0
    ensures forall i :: 0 <= i < |s| ==> IsDigit(s[i]) || s[i] == '-'
    ensures s[0] == '-' <==> n < 0
    ensures n < 0 ==> |s| >= 2 && s[1] != '0' && forall i :: 1 <= i < |s| ==> IsDigit(s[i])
    ensures n >= 0 ==> (s[0] == '0' <==> n == 0)
  {
    if n < 0 then "-" + NatToString(-n) else NatToString(n)
  }

  /** Reads a string of decimal digits back as a number. */
  function ParseNat(s: string): nat
    decreases |s|
  {
    if |s| == 0 then 0
    else
      var d := (s[|s| - 1] as int) - ('0' as int);
      10 * ParseNat(s[..|s| - 1]) + (if 0 <= d then d else 0)
  }

  lemma {:induction false} NatRoundTrip(n: nat)
    ensures ParseNat(NatToString(n)) == n
    decreases n
  {
    if n >= 10 {
      var s := NatToString(n);
      NatRoundTrip(n / 10);
      assert s[..|s| - 1] == NatToString(n / 10);
    }
  }

  /** Distinct integers print differently. */
  lemma IntToStringInjective(a: int, b: int)
    ensures IntToString(a) == IntToString(b) ==> a == b
  {
    var s := IntToString(a);
    if s != IntToString(b) {
    } else if a < 0 {
      assert s[0] == '-';
      assert !IsDigit(s[0]);
      assert b < 0;
      assert NatToString(-a) == s[1..] == NatToString(-b);
      NatRoundTrip(-a);
      NatRoundTrip(-b);
    } else {
      assert IsDigit(s[0]);
      assert b >= 0;
      NatRoundTrip(a);
      NatRoundTrip(b);
    }
  }
}

=== FILE: wrappers.dfy ===
/** The optional-value type shared by the scraper and the enrichment models:
    Python's `None` versus a present value. */
module Wrappers {

  datatype Option<+T> = None | Some(value: T) {

    /** The value when present, `default` otherwise (Python's `d.get(k, default)`). */
    function GetOr(default: T): T {
      match this
      case Some(v) => v
      case None => default
    }
  }
}
